=== FILE: README.md ===
# StaticGen build core in Dafny

This project models the core of StaticGen, a Python static-site generator, and proves
properties about that model. StaticGen reads a configuration, pages and collections of
HTML content files with JSON front matter enclosed in `+++`, global JSON data files, and
plugins. It renders every page and collection item through Jinja, then copies static
files and assets. It writes a sitemap and an RSS feed of the `posts` collection, and it
fires plugin hooks around each stage. Its development server rebuilds the site when a
watched file changes.

The modules follow the source files:

| module | models |
|---|---|
| `FrontMatterParser` | `parse_front_matter`: `+++` detection, `split('+++', 2)`, the JSON decoder, `strip` of the body |
| `UrlHelpers` | `url` and `static`, in relative and absolute mode |
| `DataCollectionsLoader` | `load_data_files` (a flat map keyed by file stem) and `load_collections` (item records with output paths and URLs) |
| `PluginSystem` | the `PLUGINS` registry as class `Registry`; `load_plugins` and `run_hook` as its methods |
| `BuildPages` | `render_all_content` with its page-data assembly; `_load_json_file_from_assets`; `_render_and_save_output` |
| `BuildStages` | `copy_static`, `copy_assets`, `generate_sitemap`, `generate_rss_feed` |
| `RssFeed` | what `generate_rss_feed` computes: `strptime(date, "%Y-%m-%d")`, the stable newest-first sort, the cap of ten, the item and channel fields |
| `BuildCommand` | `build_command` and the fixed order of its stages |
| `DevServer` | `MyHandler` (class `WatchHandler`) with its throttle and relevance test; `guess_type` |
| `PyText`, `JsonValues`, `SiteInputs`, `Wrappers`, `BuildTrace` | the Python built-ins the code relies on, decoded JSON values, the configuration and file-system snapshot, Option/Result/exceptions, and the event trace of a build |

The model's shape:
- A build is modelled as its trace of observable events: hooks fired, with the plugin calls each made; output cleared; data and collections loaded; copies, sitemap and feed written. An exception that escapes ends the trace with `Aborted(fault)`.
- Each imperative operation is a `method` with loops. Each is proved equal to a specification function, and the properties are lemmas about those functions.
- Everything outside the code is a parameter:
  - Jinja (`Engine`) and the JSON decoder (`JsonDecoder`);
  - the file system (`Disk`: existing paths, file texts and `os.walk` listings);
  - the result of each plugin import;
  - `os.path.abspath`, the clock, and the outcome of a rebuild.

## Where the model follows the code

Some behaviours of the code are easy to misread. Each one below is stated by a lemma.
- URLs are not normalised. `base_url` is used as written, so a trailing slash doubles (`UrlHelpers.BaseUrlIsNotNormalised`). The canonical link is `base_url + "/" + path`. In absolute mode `url` is not idempotent (`UrlHelpers.AbsoluteUrlNotIdempotent`).
- Global data is a flat map keyed by file stem, not a nested mapping. Two files with the same stem in different sub-directories do not raise; the later one overwrites the earlier (`DataCollectionsLoader.DataLastWins`).
- The watcher throttles, it does not debounce. An event less than one second after the last successful rebuild is dropped, and nothing is rebuilt after a burst ends (`DevServer.ThrottleWindow`).
- Relevance is a string-prefix test, so a sibling directory such as `pages-old` also counts as relevant (`DevServer.PrefixFalsePositive`).
- Plugin exceptions are logged and swallowed (`PluginSystem.RaisingHookDoesNotStopDispatch`).
- The sitemap is neither sorted nor de-duplicated (`BuildStages.SitemapListsEveryPage`).
- Posts without a date sort last, because they take `datetime.min`. Among equal dates the posts keep their walk order, so that order depends on the input (`RssFeed.FeedIsNewestFirst`).
- A collection item in a sub-directory is rendered at `output/<basename>`. The `url` the loader recorded, which the feed uses, keeps the sub-directory (`BuildPages.NestedItemUrlDiffers`).
- A `data_file` or `data_files` entry whose file is missing still gets its URL (`BuildPages.MergeUrls`, `BuildPages.DataFileWins`).
- With no posts, the feed stage returns before `after_generate_rss_feed` (`BuildStages.RssOutcome`).

## Model

| member | source | states |
|---|---|---|
| FrontMatterParser.SplitAfterOpening | ssg/front_matter_parser.py:13 | on a text starting with `+++`, `split('+++', 2)` gives `""`, the text up to the next `+++` and the rest after it, or `""` and the whole remainder when there is no second `+++` |
| FrontMatterParser.ParseFrontMatterCases | ssg/front_matter_parser.py:6-21 | no leading `+++`, no closing `+++`, or an undecodable middle each give `({}, content)` unchanged; otherwise the metadata is the decoded middle (`{}` when falsy) and the body is the stripped text after the closing `+++` |
| FrontMatterParser.MetaTextHasNoDelimiter | ssg/front_matter_parser.py:13-16 | the text handed to the decoder is exactly the text between the first two delimiters and holds no `+++` |
| FrontMatterParser.ParsedBody | ssg/front_matter_parser.py:13-17 | when both delimiters are found and the metadata decodes, the body is the text after the closing delimiter with surrounding whitespace stripped |
| FrontMatterParser.StrippedTailKeepsDelimiter | ssg/front_matter_parser.py:13-17 | a `+++` after the closing delimiter is still in the stripped body, because the split stops at two |
| FrontMatterParser.WrappedRoundTrip | ssg/front_matter_parser.py:12-20 | `+++` + meta + `+++` + body parses back to the decoded meta (`{}` when falsy) and the stripped body, or to `({}, text)` when meta does not decode |
| FrontMatterParser.MetaIsTruthyOrEmpty | ssg/front_matter_parser.py:17 | the metadata returned is truthy or exactly `{}` |
| UrlHelpers.Url | ssg/url_helpers.py:6-10 | relative mode: one `/` and then the path with all its leading slashes removed; absolute mode: `base_url + "/"` and then the path with its leading slashes removed |
| UrlHelpers.RelativeUrlHasOneLeadingSlash | ssg/url_helpers.py:10 | a relative URL starts with exactly one slash |
| UrlHelpers.LStripSlashIdempotent | ssg/url_helpers.py:10 | stripping leading slashes twice is stripping them once |
| UrlHelpers.RelativeUrlIdempotent | ssg/url_helpers.py:10 | in relative mode `url(url(p)) == url(p)` |
| UrlHelpers.BaseUrlIsNotNormalised | ssg/url_helpers.py:8-9 | base URLs with and without a trailing slash give different links, the first with `//` |
| UrlHelpers.AbsoluteUrlNotIdempotent | ssg/url_helpers.py:8-9 | in absolute mode a second `url` puts the base URL in front again, for any base not starting with `/` |
| UrlHelpers.Static | ssg/url_helpers.py:12-20 | the link is `/static` followed by the relative-mode URL, with `base_url` in front in absolute-static mode; the warning is logged exactly when the joined static path does not exist |
| UrlHelpers.StaticIgnoresExistence | ssg/url_helpers.py:14-20 | the link is the same on any two file systems |
| PluginSystem.ModuleName | ssg/plugin_system.py:33 | the module name followed by `.py` is the file name |
| PluginSystem.Registry.constructor | ssg/plugin_system.py:8 | the registry starts empty |
| PluginSystem.Registry.LoadPlugins | ssg/plugin_system.py:10-44 | the registry is replaced, with nothing from before kept: it is empty without a usable plugins directory, and otherwise holds the plugins discovered from the listing; the registry is returned |
| PluginSystem.Registry.RunHook | ssg/plugin_system.py:46-58 | returns the calls `Dispatch` describes and leaves the registry unchanged |
| PluginSystem.DiscoveredAppend | ssg/plugin_system.py:31-40 | the plugins of a listing followed by more files are those of the listing followed by those of the files: registration follows listing order |
| PluginSystem.DiscoveredMembers | ssg/plugin_system.py:31-40 | a plugin is registered exactly when some listed `.py` file not starting with `__` imported, under its module name with its hooks |
| PluginSystem.DispatchCallsDefining | ssg/plugin_system.py:53-56 | `run_hook` makes one call per plugin defining the hook, in registration order, recording whether it raised, and no other call |
| PluginSystem.DispatchAppend | ssg/plugin_system.py:53-58 | dispatch over two parts of a registry is dispatch over the first part, then the second |
| PluginSystem.RaisingHookDoesNotStopDispatch | ssg/plugin_system.py:55-58 | a raising hook is recorded and the plugins after it are still called |
| DataCollectionsLoader.LoadDataFiles | ssg/data_collections_loader.py:10-42 | returns the map built from the walk's contributions in order, and `{}` when the data directory is unset, empty or missing |
| DataCollectionsLoader.DataKeys | ssg/data_collections_loader.py:22-36 | a key is present exactly when some walked `.json` file (any case) with that stem loaded |
| DataCollectionsLoader.DataLastWins | ssg/data_collections_loader.py:24-36 | the value under a stem is that of the last file with that stem that loaded |
| DataCollectionsLoader.DataSkipsFailedFile | ssg/data_collections_loader.py:34-41 | a non-JSON, unreadable or undecodable file leaves the map exactly as it was |
| DataCollectionsLoader.ItemFields | ssg/data_collections_loader.py:64-86 | an item holds the parsed front matter and body of its file; its output path joins the collection's `output` setting, or else the collection's name, with the file's path relative to the collection directory; its URL is that of the output path; its source path has the file's name as basename |
| DataCollectionsLoader.LoadItems | ssg/data_collections_loader.py:61-87 | fails with `IOError` exactly when some HTML file of the walk cannot be read; otherwise returns one item per HTML file, in walk order |
| DataCollectionsLoader.LoadCollections | ssg/data_collections_loader.py:44-89 | returns the collections of the configured entries whose path is usable, in configuration order, or the `IOError` of an unreadable item |
| DataCollectionsLoader.ItemsAreHtmlFiles | ssg/data_collections_loader.py:61-87 | the items are exactly the walk's `.html` files (case-sensitive), one each, in walk order |
| DataCollectionsLoader.CollectionPresence | ssg/data_collections_loader.py:53-88 | a configured collection has an entry exactly when its path is set, non-empty and exists |
| JsonValues.HasKey | ssg/build_core.py:109 | `key in v` on a dict tests its keys and raises `TypeError` on a number, boolean or null |
| JsonValues.Index | ssg/build_core.py:110 | `v[key]` succeeds exactly on a dict holding the key |
| JsonValues.Get | ssg/build_core.py:157 | `.get` succeeds exactly on a dict and finds a value exactly when the key is present |
| BuildPages.LoadAsset | ssg/build_core.py:68-82 | succeeds exactly when the path is a string; the file is looked up under the assets directory with the path's leading slashes removed; it gives the decoded file when that exists, reads and decodes, and `{}` when it is missing, unreadable or undecodable |
| BuildPages.Update | ssg/build_core.py:116 | merging a mapping adds its keys, overriding those already present |
| BuildPages.AssemblePageData | ssg/build_core.py:105-117 | the page data and URL list the loop builds are those of `PageDataOf` |
| BuildPages.MergeSnoc | ssg/build_core.py:115-117 | one more entry of `data_files` is loaded, merged and given its URL after all the others |
| BuildPages.LaterFileOverrides | ssg/build_core.py:115-116 | a key of the last data file wins over every value merged before it |
| BuildPages.MergeUrls | ssg/build_core.py:114-117 | a successful `data_files` merge had only string entries, and the URL list is one `url(df)` per entry, in declaration order, whether or not the file exists |
| BuildPages.DataUrlsAt | ssg/build_core.py:115-117 | the `i`-th data URL is the URL of the `i`-th entry |
| BuildPages.DataFileWins | ssg/build_core.py:109-112 | a present `data_file` alone decides the page data, and its URL is the only one; assembly fails exactly when it is not a string |
| BuildPages.FinishFacts | ssg/build_core.py:46-66 | the page is kept exactly when rendering succeeds, with its source path, its output path under the output directory and the URL of its relative output path |
| BuildPages.PageStepEvents | ssg/build_core.py:92-142 | rendering a page fires only `before_render_page` and `after_render_page` hooks |
| BuildPages.ItemStepEvents | ssg/build_core.py:146-196 | rendering an item fires only `before_render_page` and `after_render_page` hooks |
| BuildPages.RenderPage | ssg/build_core.py:93-142 | the loop body for a page produces the step `PageStep` describes |
| BuildPages.RenderItem | ssg/build_core.py:148-196 | the loop body for an item produces the step `ItemStep` describes |
| BuildPages.RenderAllContent | ssg/build_core.py:85-198 | the hooks, kept infos and escaping fault of the two loops are those of `RenderedContent`: pages first, then the items of each collection, stopping at the first fault |
| BuildPages.RenderPages | ssg/build_core.py:92-142 | the page loop gives the rendering of `PagesFrom`: every `.html` file of the walk in order, stopping at the first fault |
| BuildPages.RenderItems | ssg/build_core.py:148-196 | the loop over one collection's items gives the rendering of `ItemsFrom`, stopping at the first fault |
| BuildPages.PageHooks | ssg/build_core.py:99-142 | `before_render_page` always fires; `after_render_page` fires exactly when the template was created, whatever the render does; the page is kept exactly when rendering succeeds; only an unreadable file or failing page data raise |
| BuildPages.ContextUrls | ssg/build_core.py:127-137 | `url` and `absolute_final_url` are `url` of the output path; the canonical link equals the URL in absolute mode and is `base_url` followed by the URL in relative mode |
| BuildPages.PageUrls | ssg/build_core.py:95-141 | a rendered page's URLs are those of its path relative to the pages directory, and the info kept for it carries that URL and its source path |
| BuildPages.ItemHooks | ssg/build_core.py:149-196 | a missing `output` setting raises before any hook; without a truthy layout, or with a layout that does not load, the item is skipped after `before_render_page` and without `after_render_page`; a created template gets `after_render_page`, and the item is kept exactly when its layout renders; only front matter that is not a dict and failing page data raise |
| BuildPages.ItemUrls | ssg/build_core.py:152-195 | an item is written at `output/<basename of its source>`; its URLs, canonical link and kept info follow that path, and its content is passed in the context |
| BuildPages.NestedItemUrlDiffers | ssg/build_core.py:152 | for `content/posts/2024/a.html` in a collection with output `blog`, the loader's URL is `/blog/2024/a.html` while the page is rendered at `/blog/a.html` |
| BuildPages.RenderedEvents | ssg/build_core.py:85-198 | `render_all_content` fires only page hooks |
| BuildStages.CopyStatic | ssg/build_core.py:201-209 | the before hook, the copy (done only when the static directory exists), then the after hook |
| BuildStages.CopyAssets | ssg/build_core.py:211-219 | the before hook, the copy (done only when the assets directory exists), then the after hook |
| BuildStages.GenerateSitemap | ssg/build_core.py:221-243 | the sitemap the loop writes lists the rendered pages' URLs, between the two sitemap hooks |
| BuildStages.SitemapListsEveryPage | ssg/build_core.py:228-230 | the sitemap has exactly one `<loc>` per rendered page, equal to its URL, at its position: no sorting and no de-duplication |
| BuildStages.SitemapAppend | ssg/build_core.py:228-230 | the sitemap of pages then items is the pages' sitemap followed by the items' |
| BuildStages.RssStage | ssg/build_core.py:245-303 | the feed stage starts with `before_generate_rss_feed` and either stops there or writes a feed followed by `after_generate_rss_feed` |
| BuildStages.GenerateRssFeed | ssg/build_core.py:245-303 | the stamping loop and the item loop produce the events and the fault of `RssStage` |
| BuildStages.StampPosts | ssg/build_core.py:257-264 | the stamping loop gives the stamps of `Stamps`, or its fault |
| BuildStages.CollectFeedItems | ssg/build_core.py:279-293 | the item loop gives the items of `FeedItems` |
| BuildStages.RssOutcome | ssg/build_core.py:247-303 | no posts: no feed, no after hook, no fault; a post whose front matter is not a dict raises `AttributeError`; otherwise the feed has `min(10, number of posts)` items and the configured channel, and it is written, followed by `after_generate_rss_feed`, exactly when every title and description ElementTree would write is a string; else `TypeError` is raised with nothing written |
| BuildStages.StampsFault | ssg/build_core.py:258 | stamping fails only with `AttributeError` |
| BuildStages.PostsAreThePostsCollection | ssg/build_core.py:250 | the feed reads exactly the loaded collection named `posts`, or nothing |
| RssFeed.ParseDate | ssg/build_core.py:261 | every date `strptime` accepts is a valid calendar date in years 1 to 9999 |
| RssFeed.ParseFormattedDate | ssg/build_core.py:261 | every valid date written `YYYY-MM-DD` reads back as itself |
| RssFeed.UnpaddedDates | ssg/build_core.py:261 | unpadded and space-padded fields are accepted; 29 February of a non-leap year, year 0 and trailing text are refused |
| RssFeed.DateKeyIsCalendarOrder | ssg/build_core.py:266 | the numeric sort key orders valid dates by calendar, and is equal only for equal dates |
| RssFeed.Stamps | ssg/build_core.py:257-264 | a successful stamping gives one stamp per post, in order: the `i`-th is the stamp of the `i`-th post's `date` |
| RssFeed.StampsOk | ssg/build_core.py:257-264 | stamping succeeds exactly when every post's front matter is a dict |
| RssFeed.MissingDatesSortAsMinimum | ssg/build_core.py:264-266 | a missing or unparsable date sorts as `datetime.min`, and no date sorts lower |
| RssFeed.InsertDescOrdered | ssg/build_core.py:266 | inserting a later position into a newest-first, stable order keeps it ordered and adds exactly that position |
| RssFeed.SortPrefix | ssg/build_core.py:266 | the first `n` positions in newest-first order, with equal keys in original order, each exactly once |
| RssFeed.SortedOrder | ssg/build_core.py:266 | `sorted(..., reverse=True)` on positions: every post exactly once, newer first, equal dates in their original order |
| RssFeed.Summary | ssg/build_core.py:293 | content up to 200 characters is kept; longer content is cut to its first 200 characters followed by `...` |
| RssFeed.FeedItemOf | ssg/build_core.py:280-293 | link and guid are the post's URL; title and description are the front matter's own when present, and otherwise `No Title` and the summary of the content; `pubDate` exists exactly for a stamped post |
| RssFeed.ChannelOf | ssg/build_core.py:271-276 | title and description are the configured ones when set, and otherwise their defaults; the link is `base_url` and the atom link is `base_url/feed.xml` |
| RssFeed.FeedOrder | ssg/build_core.py:279 | at most ten positions, all of posts |
| RssFeed.FeedItems | ssg/build_core.py:279-293 | the feed has `min(10, number of posts)` items |
| RssFeed.FeedIsNewestFirst | ssg/build_core.py:266-283 | the feed lists newer posts first, each at most once, posts with equal dates in their original order; no post left out is newer than one listed, and item `k` is the record of the `k`-th post in that order |
| BuildCommand.Build | ssg/build_core.py:306-330 | the registry holds the plugins loaded for the site, and the trace is `BuildEvents` of that registry |
| BuildCommand.StagesInOrder | ssg/build_core.py:312-330 | stages never go back in the order: plugins, `before_build`, output, data, collections, rendering, static, assets, sitemap, feed, `after_build`; a fault can only be the last event, and the trace ends with a fault or `after_build` |
| BuildCommand.BuildCompletes | ssg/build_core.py:312-330 | the build starts with plugins, `before_build`, output clearing and data; it ends with `after_build` exactly when the collections load, no page raises and the feed stage does not raise |
| DevServer.WatchHandler.constructor | ssg/dev_server.py:20-24 | the handler keeps the config path and the config loaded once, and reads the clock at construction |
| DevServer.WatchHandler.OnAnyEvent | ssg/dev_server.py:26-56 | the reaction and the new `last_rebuild_time` are those of `React`: throttled, ignored, rebuilt or failed |
| DevServer.RelevantDirsMembers | ssg/dev_server.py:32-45 | the relevant directories are exactly the set, non-empty, existing candidates (six directories and the collection paths), made absolute |
| DevServer.RelevantIffCandidate | ssg/dev_server.py:45-49 | an event is relevant exactly when such a directory is a string prefix of its absolute path, or it is the config file |
| DevServer.ThrottleWindow | ssg/dev_server.py:28-29 | an event is dropped exactly when less than one second has passed, and a dropped event leaves the clock alone |
| DevServer.RebuildClock | ssg/dev_server.py:49-56 | a rebuild happens exactly for a relevant event after the throttle window whose build completes; only it moves `last_rebuild_time`, to the completion time |
| DevServer.PrefixFalsePositive | ssg/dev_server.py:49 | a change in `/site/pages-old` triggers a rebuild when the pages directory is `/site/pages` |
| DevServer.KeysAreLowerCase | ssg/dev_server.py:155-174 | every extension in the handler's map is lower-case |
| DevServer.GuessTypeIgnoresCase | ssg/dev_server.py:143-152 | the MIME type depends only on the lower-cased extension, and is `application/octet-stream` exactly when that is not in the map |
| PyText.Find | ssg/front_matter_parser.py:13 | the first index at which the pattern occurs, or none when it does not occur |
| PyText.FindExtend | ssg/front_matter_parser.py:13 | a first occurrence stays the first when text is appended |
| PyText.Split | ssg/front_matter_parser.py:13 | `split(sep, maxsplit)` gives between one and `maxsplit + 1` parts; joined with the separator they give the text back; every cut is at the first occurrence of the separator in the text remaining from that part on; no part but the last holds the separator, and the last holds it only when all `maxsplit` cuts were made |
| PyText.LStrip | ssg/url_helpers.py:10 | removes exactly the longest prefix of the given characters |
| PyText.Strip | ssg/front_matter_parser.py:17 | the result is a contiguous stretch of the text with only stripped characters before and after it, and it neither starts nor ends with a stripped character |
| PyText.StripKeepsOccurrence | ssg/front_matter_parser.py:17 | an occurrence of a pattern whose ends are not stripped survives `strip` |
| PyText.AsciiLower | ssg/data_collections_loader.py:25 | lower-cases each character, keeping the length |
| PyText.PathJoin | ssg/data_collections_loader.py:77 | the joined path ends with its second part |
| PyText.PathJoinRules | ssg/data_collections_loader.py:77 | a second part starting with `/` replaces the first; otherwise it follows the first, with one `/` added exactly when the first is non-empty and does not end with `/` |
| PyText.Basename | ssg/build_core.py:152 | the slash-free suffix after the last slash |
| PyText.BasenameOfJoin | ssg/build_core.py:152 | the basename of a joined path is the basename of its last part |
| PyText.SplitExt | ssg/data_collections_loader.py:24 | root and extension concatenate to the name; the extension is empty or a dot followed by no further dot or slash; it is non-empty exactly when the last path component has a dot after some character other than a dot |

## Left out

- File writes, `shutil.rmtree`, `shutil.copytree`, `os.makedirs` and logging are not modelled. A copy or write is recorded as an event holding what would be written.
- The disk is a fixed snapshot. Files the build itself writes, such as assets copied into the output directory, are not visible to later reads.
- Jinja (`setup_jinja_environment`, `from_string`, `get_template`, `render`) is an oracle of which bodies compile, which layouts load and which renders succeed. The `site` entry of the context is not modelled.
- `json.load` and `json.loads` are a decoder parameter. It returns a value, or nothing where Python raises.
- XML building, `minidom` pretty-printing, `strftime` formatting and `lastBuildDate` (the clock) are not modelled. The sitemap is a list of `<loc>` strings and the feed is a record.
- `serve_command` is not modelled: the HTTP server, `send_head`, the watchdog `Observer` and the keep-alive loop. Only `guess_type` and `MyHandler` are modelled.
- `load_config`, which `MyHandler` and `build_command` call, is not modelled. The configuration is an input record, and the rebuild that `on_any_event` starts is an outcome parameter.
- `__import__` and the `sys.path` changes are not modelled. Each listed file carries its import result: the module's callable attributes and whether calling each raises, or nothing for an import error.
- Hook arguments (`config`, `page_path`, `output_path`, `pages`, `rss_path`, ...) are not recorded. A hook event records its name, the page path where there is one, and the calls made.
- `os.path.relpath` and `os.path.abspath` are not normalised. A walk entry carries its sub-directory and file name, and `abspath` is a function parameter.
- `cli.py`, `config_loader.py` and `jinja_extensions.py` are not part of this model.
- RssFeed.StampOf: the in-place write of `_date_obj` into each post's front matter is modelled as a separate sequence of stamps. A post whose own front matter already holds a `_date_obj` key is not modelled; in Python that value would be used for sorting.
- BuildPages.Update: `dict.update` with a non-empty list always raises `TypeError` in the model. Python accepts a list of pairs, such as two-element lists or two-character strings, and raises `ValueError` for other strings in a list.
- PyText.AsciiLower: `str.lower` is modelled on ASCII letters only. Two non-ASCII characters lower to ASCII ones: the Kelvin sign lowers to `k`, and `İ` lowers to `i` followed by a combining dot. No key contains `k`, and the combining dot stays in the lowered text, so neither can produce `.json` or a MIME-map key.
- BuildStages.RssStage: the `pubDate` string is not modelled. A string title, description, link or guid (the post's `url`) holding characters that XML cannot carry, such as `\x01`, makes `minidom.parseString` raise `ExpatError`; that fault is not modelled, and the model writes the feed.
- BuildStages.SitemapStage and BuildStages.GenerateSitemap: a page URL holding a character that XML cannot carry, which can come from a file name, makes `minidom.parseString` raise `ExpatError` after `before_generate_sitemap` (ssg/build_core.py:237), and the build aborts. That fault is not modelled: the model always writes the sitemap and fires `after_generate_sitemap`.
- RssFeed.ParseDate: only ASCII digits are modelled. Python's `%Y` accepts any Unicode decimal digits, such as `٢٠٢٤-01-15`, and so does the second digit of a day from 10 to 29, such as `2024-01-1٥`. `%m` accepts only ASCII digits.
- Configuration typing is not modelled. The configuration is a typed record, so the following Python faults are not modelled: the `KeyError` of a missing `base_url` (ssg/build_core.py:133 and 187); the `TypeError` of a collection whose `output` is `null` (ssg/data_collections_loader.py:72-77); and the `TypeError` of `os.path.exists(None)` for a collection whose `path` is `null` (ssg/build_core.py:28).
- Plugin hooks receive the live `config`, `pages` and `collections_data` objects and may change them. The model assumes that hooks leave their arguments unchanged. `BuildCommand.BuildCompletes`, `BuildStages.SitemapListsEveryPage` and `BuildStages.RssOutcome` hold under that assumption.

=== FILE: build_command.dfy ===
/**
 * `build_command(config_path)`: load the plugins, fire `before_build`, clear the output
 * directory, load data and collections, render, copy static files and assets, write
 * the sitemap and the feed, fire `after_build`. An exception from any stage ends the
 * build there.
 */
module BuildCommand {
  import opened Wrappers
  import opened SiteInputs
  import opened DataCollectionsLoader
  import opened PluginSystem
  import opened RssFeed
  import opened BuildTrace
  import opened BuildPages
  import opened BuildStages

  /** The registry `load_plugins` leaves for this site. */
  function LoadedPlugins(site: Site, listing: seq<ListedFile>): seq<Plugin> {
    if IsSet(site.cfg.pluginsDir) && site.disk.Exists(site.cfg.pluginsDir.value) then Discovered(listing) else []
  }

  /** The events up to and including data loading, which cannot fail. */
  function Prelude(plugins: seq<Plugin>, site: Site): seq<Event> {
    [PluginsLoaded(plugins), Hook(plugins, "before_build"), OutputCleared(site.disk.Exists(site.cfg.outputDir)),
     DataLoaded(SiteData(site.cfg, site.disk, site.decode))]
  }

  /** The whole trace of a build with the registry holding `plugins`. */
  function BuildEvents(plugins: seq<Plugin>, site: Site): seq<Event> {
    var prelude := Prelude(plugins, site);
    match LoadedCollections(site.cfg, site.disk, site.decode)
    case Err(f) => prelude + [Aborted(f)]
    case Ok(cols) =>
      var rendered := RenderedContent(plugins, site, cols);
      var upToRender := prelude + [CollectionsLoaded(cols)] + rendered.events;
      if rendered.fault.Some? then upToRender + [Aborted(rendered.fault.value)]
      else
        var rss := RssStage(plugins, site, cols);
        var upToFeed := upToRender + StaticStage(plugins, site) + AssetsStage(plugins, site)
                        + SitemapStage(plugins, rendered.infos) + rss.0;
        if rss.1.Some? then upToFeed + [Aborted(rss.1.value)] else upToFeed + [Hook(plugins, "after_build")]
  }

  /** `build_command`, on a configuration already loaded. */
  method Build(reg: Registry, site: Site, listing: seq<ListedFile>) returns (trace: seq<Event>)
    modifies reg
    ensures reg.plugins == LoadedPlugins(site, listing)
    ensures trace == BuildEvents(reg.plugins, site)
  {
    var plugins := reg.LoadPlugins(site.cfg.pluginsDir, site.disk, listing);
    var calls := reg.RunHook("before_build");
    var existed := site.disk.Exists(site.cfg.outputDir);     // removed, then re-created
    var data := LoadDataFiles(site.cfg, site.disk, site.decode);
    trace := [PluginsLoaded(plugins), HookFired("before_build", None, calls), OutputCleared(existed), DataLoaded(data)];
    var cols := LoadCollections(site.cfg, site.disk, site.decode);
    if cols.Err? {
      return trace + [Aborted(cols.fault)];
    }
    trace := trace + [CollectionsLoaded(cols.value)];
    var rendered := RenderAllContent(reg, site, cols.value);
    trace := trace + rendered.events;
    if rendered.fault.Some? {
      return trace + [Aborted(rendered.fault.value)];
    }
    var events := CopyStatic(reg, site);
    trace := trace + events;
    events := CopyAssets(reg, site);
    trace := trace + events;
    events := GenerateSitemap(reg, rendered.infos);
    trace := trace + events;
    var fault;
    events, fault := GenerateRssFeed(reg, site, cols.value);
    trace := trace + events;
    if fault.Some? {
      return trace + [Aborted(fault.value)];
    }
    calls := reg.RunHook("after_build");
    trace := trace + [HookFired("after_build", None, calls)];
  }

  // ----- stage order -----

  /** The stage a hook belongs to. */
  function HookStage(hook: string): nat {
    if hook == "before_build" then 1
    else if hook == "before_render_page" || hook == "after_render_page" then 5
    else if hook == "before_copy_static" || hook == "after_copy_static" then 6
    else if hook == "before_copy_assets" || hook == "after_copy_assets" then 7
    else if hook == "before_generate_sitemap" || hook == "after_generate_sitemap" then 8
    else if hook == "before_generate_rss_feed" || hook == "after_generate_rss_feed" then 9
    else if hook == "after_build" then 10
    else 0
  }

  /** The stage of the build an event belongs to, in the order `build_command` runs them. */
  function StageOf(e: Event): nat {
    match e
    case PluginsLoaded(_) => 0
    case HookFired(hook, _, _) => HookStage(hook)
    case OutputCleared(_) => 2
    case DataLoaded(_) => 3
    case CollectionsLoaded(_) => 4
    case StaticCopied(_) => 6
    case AssetsCopied(_) => 7
    case SitemapWritten(_) => 8
    case FeedWritten(_) => 9
    case Aborted(_) => 11
  }

  /** Every event of `t` is of a stage no later than `k`, and the stages never go back. */
  predicate StagedUpTo(t: seq<Event>, k: nat) {
    && (forall i, j :: 0 <= i < j < |t| ==> StageOf(t[i]) <= StageOf(t[j]))
    && (forall i :: 0 <= i < |t| ==> StageOf(t[i]) <= k)
  }

  predicate AllAt(t: seq<Event>, k: nat) {
    forall i :: 0 <= i < |t| ==> StageOf(t[i]) == k
  }

  lemma Extend(t: seq<Event>, k0: nat, b: seq<Event>, k: nat)
    requires StagedUpTo(t, k0) && k0 <= k && AllAt(b, k)
    ensures StagedUpTo(t + b, k)
  {
    forall i, j | 0 <= i < j < |t + b| ensures StageOf((t + b)[i]) <= StageOf((t + b)[j]) {
      if j >= |t| {
        assert (t + b)[j] == b[j - |t|];
        if i < |t| {
          assert (t + b)[i] == t[i];
        } else {
          assert (t + b)[i] == b[i - |t|];
        }
      }
    }
  }

  /** A trace whose stages never go back and whose only possible fault is its last event. */
  predicate WellStaged(t: seq<Event>) {
    && |t| >= 1
    && StagedUpTo(t, 11)
    && forall i :: 0 <= i < |t| - 1 ==> !t[i].Aborted?
  }

  /** The trace ends with a fault or with `after_build`. */
  predicate EndsWell(t: seq<Event>, plugins: seq<Plugin>) {
    |t| >= 1 && (t[|t| - 1].Aborted? || t[|t| - 1] == Hook(plugins, "after_build"))
  }

  lemma Close(body: seq<Event>, k: nat, last: Event)
    requires StagedUpTo(body, k) && k <= 10 && StageOf(last) >= k
    ensures WellStaged(body + [last]) && (body + [last])[|body|] == last
  {
    Extend(body, k, [last], StageOf(last));
    forall i | 0 <= i < |body| ensures !(body + [last])[i].Aborted? {
      assert (body + [last])[i] == body[i];
      assert StageOf(body[i]) <= 10;
    }
  }

  lemma UpToRender(prelude: seq<Event>, loaded: Event, render: seq<Event>)
    requires StagedUpTo(prelude, 3) && StageOf(loaded) == 4 && AllRenderHooks(render)
    ensures StagedUpTo(prelude + [loaded] + render, 5)
  {
    Extend(prelude, 3, [loaded], 4);
    forall i | 0 <= i < |render| ensures StageOf(render[i]) == 5 {
      assert render[i] in render;
    }
    Extend(prelude + [loaded], 4, render, 5);
  }

  lemma AfterRender(u: seq<Event>, statics: seq<Event>, assets: seq<Event>, sitemap: seq<Event>, rss: seq<Event>)
    requires StagedUpTo(u, 5) && AllAt(statics, 6) && AllAt(assets, 7) && AllAt(sitemap, 8) && AllAt(rss, 9)
    ensures StagedUpTo(u + statics + assets + sitemap + rss, 9)
  {
    Extend(u, 5, statics, 6);
    Extend(u + statics, 6, assets, 7);
    Extend(u + statics + assets, 7, sitemap, 8);
    Extend(u + statics + assets + sitemap, 8, rss, 9);
  }

  lemma CopyStages(plugins: seq<Plugin>, site: Site)
    ensures AllAt(StaticStage(plugins, site), 6) && AllAt(AssetsStage(plugins, site), 7)
  {
  }

  lemma SitemapStageAt(plugins: seq<Plugin>, infos: seq<PageInfo>)
    ensures AllAt(SitemapStage(plugins, infos), 8)
  {
  }

  lemma RssStageEvents(plugins: seq<Plugin>, site: Site, cols: seq<Collection>)
    ensures AllAt(RssStage(plugins, site, cols).0, 9)
  {
    FeedEventsAt(plugins, RssStage(plugins, site, cols).0);
  }

  lemma FeedEventsAt(plugins: seq<Plugin>, events: seq<Event>)
    requires |events| >= 1 && events[0] == Hook(plugins, "before_generate_rss_feed")
    requires |events| == 1 || (|events| == 3 && events[1].FeedWritten? && events[2] == Hook(plugins, "after_generate_rss_feed"))
    ensures AllAt(events, 9)
  {
  }

  /**
   * A build runs its stages in the fixed order of `build_command`: plugins, `before_build`,
   * output directory, data, collections, rendering, static files, assets, sitemap, feed,
   * `after_build`; the build ends either with `after_build` or, at its first escaping
   * exception, with that fault, and nothing follows it.
   */
  lemma StagesInOrder(plugins: seq<Plugin>, site: Site)
    ensures WellStaged(BuildEvents(plugins, site)) && EndsWell(BuildEvents(plugins, site), plugins)
  {
    var prelude := Prelude(plugins, site);
    assert StagedUpTo(prelude, 3);
    match LoadedCollections(site.cfg, site.disk, site.decode)
    case Err(f) =>
      Close(prelude, 3, Aborted(f));
    case Ok(cols) =>
      RenderedEvents(plugins, site, cols);
      AfterLoading(plugins, site, prelude, cols, RenderedContent(plugins, site, cols));
  }

  /** The trace from the loaded collections on, for any rendering that fires only page hooks. */
  lemma AfterLoading(plugins: seq<Plugin>, site: Site, prelude: seq<Event>, cols: seq<Collection>, rendered: Rendering)
    requires StagedUpTo(prelude, 3) && AllRenderHooks(rendered.events)
    ensures var upToRender := prelude + [CollectionsLoaded(cols)] + rendered.events;
      var rss := RssStage(plugins, site, cols);
      var upToFeed := upToRender + StaticStage(plugins, site) + AssetsStage(plugins, site)
                      + SitemapStage(plugins, rendered.infos) + rss.0;
      var t := if rendered.fault.Some? then upToRender + [Aborted(rendered.fault.value)]
               else if rss.1.Some? then upToFeed + [Aborted(rss.1.value)] else upToFeed + [Hook(plugins, "after_build")];
      WellStaged(t) && EndsWell(t, plugins)
  {
    UpToRender(prelude, CollectionsLoaded(cols), rendered.events);
    var upToRender := prelude + [CollectionsLoaded(cols)] + rendered.events;
    if rendered.fault.Some? {
      Close(upToRender, 5, Aborted(rendered.fault.value));
    } else {
      var rss := RssStage(plugins, site, cols);
      RssStageEvents(plugins, site, cols);
      CopyStages(plugins, site);
      SitemapStageAt(plugins, rendered.infos);
      AfterRender(upToRender, StaticStage(plugins, site), AssetsStage(plugins, site), SitemapStage(plugins, rendered.infos), rss.0);
      var upToFeed := upToRender + StaticStage(plugins, site) + AssetsStage(plugins, site) + SitemapStage(plugins, rendered.infos) + rss.0;
      Close(upToFeed, 9, if rss.1.Some? then Aborted(rss.1.value) else Hook(plugins, "after_build"));
    }
  }

  /**
   * A build completes, ending with `after_build`, exactly when the collections load, every
   * page and item renders without an escaping exception, and the feed stage does not raise.
   */
  lemma BuildCompletes(plugins: seq<Plugin>, site: Site)
    ensures var t := BuildEvents(plugins, site);
      var cols := LoadedCollections(site.cfg, site.disk, site.decode);
      && t[..4] == Prelude(plugins, site)
      && (t[|t| - 1] == Hook(plugins, "after_build") <==>
            cols.Ok? && RenderedContent(plugins, site, cols.value).fault.None? && RssStage(plugins, site, cols.value).1.None?)
  {
  }
}

=== FILE: build_pages.dfy ===
/**
 * `render_all_content`: every HTML page of the pages directory, then every item of
 * every loaded collection, each with its page data, its URLs and the
 * `before_render_page` / `after_render_page` hooks around it; plus
 * `_load_json_file_from_assets`, which supplies page data.
 */
module BuildPages {
  import opened Wrappers
  import opened PyText
  import opened JsonValues
  import opened SiteInputs
  import opened FrontMatterParser
  import opened UrlHelpers
  import opened DataCollectionsLoader
  import opened PluginSystem
  import opened BuildTrace

  /** A Jinja template: a page body compiled with `env.from_string`, or a layout loaded by name. */
  datatype Template = FromString(source: string) | Layout(name: Json)

  /** The `page` entry of the render context. */
  datatype PageContext = PageContext(
    frontMatter: Json,
    data: Json,
    dataJsonUrls: seq<string>,
    content: Option<string>,        // only collection items pass their content
    url: string,
    canonical: string,
    absoluteFinalUrl: string)

  /** Jinja as the build uses it: which page bodies compile, which layouts load, which renders succeed. */
  datatype Engine = Engine(compiles: string -> bool, hasLayout: Json -> bool, renders: (Template, PageContext) -> bool)

  /** Everything a build reads besides the plugins. */
  datatype Site = Site(cfg: Config, disk: Disk, decode: JsonDecoder, engine: Engine)

  /** The record kept for the sitemap and the feed about one rendered page. */
  datatype PageInfo = PageInfo(sourcePath: string, outputPath: string, url: string, frontMatter: Json, content: string)

  // ----- page data -----

  /**
   * `_load_json_file_from_assets(path, config)`: the decoded asset, or `{}` when the file
   * is missing, unreadable or not JSON; only a path that is not a string raises (`lstrip`).
   */
  function LoadAsset(path: Json, site: Site): (r: Result<Json>)
    ensures r.Ok? <==> path.JStr?
    ensures path.JStr? ==> var full := AssetPath(path.s, site.cfg); var text := site.disk.Read(full);
      && (site.disk.Exists(full) && text.Some? && site.decode(text.value).Some? ==> r == Ok(site.decode(text.value).value))
      && (!site.disk.Exists(full) || text.None? || site.decode(text.value).None? ==> r == Ok(EmptyObject))
  {
    if !path.JStr? then Err(AttributeError)
    else
      var full := AssetPath(path.s, site.cfg);
      if !site.disk.Exists(full) then Ok(EmptyObject)
      else
        match site.disk.Read(full)
        case None => Ok(EmptyObject)
        case Some(text) =>
          match site.decode(text)
          case None => Ok(EmptyObject)
          case Some(v) => Ok(v)
  }

  /** `os.path.join(config["assets_dir"], path.lstrip('/'))`: a leading slash does not leave the assets directory. */
  function AssetPath(path: string, cfg: Config): string {
    PathJoin(cfg.assetsDir, LStrip(path, Slash))
  }

  /** `page_data.update(value)`: a mapping merges in, later keys winning; an empty sequence changes nothing. */
  function Update(acc: map<string, Json>, v: Json): (r: Result<map<string, Json>>)
    ensures v.JObj? ==> r == Ok(acc + v.fields)
  {
    match v
    case JObj(fields) => Ok(acc + fields)
    case JArr(elems) => if elems == [] then Ok(acc) else Err(TypeError)
    case JStr(s) => if s == [] then Ok(acc) else Err(ValueError)
    case _ => Err(TypeError)
  }

  /** The data and the client-side URLs a page receives. */
  datatype PageData = PageData(data: Json, urls: seq<string>)

  /** The `data_files` loop, from the data and URLs gathered so far over the files still to do. */
  function MergeFrom(data: map<string, Json>, urls: seq<string>, dfs: seq<Json>, site: Site): Result<(map<string, Json>, seq<string>)>
    decreases |dfs|
  {
    if dfs == [] then Ok((data, urls))
    else
      match LoadAsset(dfs[0], site)
      case Err(f) => Err(f)
      case Ok(v) =>
        match Update(data, v)
        case Err(f) => Err(f)
        case Ok(data') => MergeFrom(data', urls + [Url(dfs[0].s, site.cfg)], dfs[1..], site)
  }

  /**
   * The page data of a page with front matter `fm`: `data_file` wins over `data_files`;
   * a `data_files` value that is not a list is ignored.
   */
  function PageDataOf(fm: Json, site: Site): Result<PageData> {
    match HasKey(fm, "data_file")
    case Err(f) => Err(f)
    case Ok(hasFile) =>
      if hasFile then
        match Index(fm, "data_file")
        case Err(f) => Err(f)
        case Ok(df) =>
          match LoadAsset(df, site)
          case Err(f) => Err(f)
          case Ok(v) => Ok(PageData(v, [Url(df.s, site.cfg)]))
      else
        match HasKey(fm, "data_files")
        case Err(f) => Err(f)
        case Ok(hasFiles) =>
          if !hasFiles then Ok(PageData(EmptyObject, []))
          else
            match Index(fm, "data_files")
            case Err(f) => Err(f)
            case Ok(dfs) =>
              if !dfs.JArr? then Ok(PageData(EmptyObject, []))
              else
                match MergeFrom(map[], [], dfs.elems, site)
                case Err(f) => Err(f)
                case Ok(merged) => Ok(PageData(JObj(merged.0), merged.1))
  }

  /** The page-data assembly of `render_all_content`, with its loop over `data_files`. */
  method AssemblePageData(fm: Json, site: Site) returns (r: Result<PageData>)
    ensures r == PageDataOf(fm, site)
  {
    var hasFile := HasKey(fm, "data_file");
    if hasFile.Err? {
      return Err(hasFile.fault);
    }
    if hasFile.value {
      var df := Index(fm, "data_file");
      if df.Err? {
        return Err(df.fault);
      }
      var loaded := LoadAsset(df.value, site);
      if loaded.Err? {
        return Err(loaded.fault);
      }
      return Ok(PageData(loaded.value, [Url(df.value.s, site.cfg)]));
    }
    // `in` raised already above if it raises at all
    if HasKey(fm, "data_files") != Ok(true) {
      return Ok(PageData(EmptyObject, []));
    }
    var dfs := Index(fm, "data_files");
    if dfs.Err? {
      return Err(dfs.fault);
    }
    if !dfs.value.JArr? {
      return Ok(PageData(EmptyObject, []));
    }
    var files := dfs.value.elems;
    var pageData: map<string, Json> := map[];
    var dataJsonUrls: seq<string> := [];
    var i := 0;
    while i < |files|
      invariant 0 <= i <= |files|
      invariant MergeFrom(pageData, dataJsonUrls, files[i..], site) == MergeFrom(map[], [], files, site)
    {
      assert files[i..][0] == files[i] && files[i..][1..] == files[i + 1..];
      var loaded := LoadAsset(files[i], site);
      if loaded.Err? {
        return Err(loaded.fault);
      }
      var merged := Update(pageData, loaded.value);
      if merged.Err? {
        return Err(merged.fault);
      }
      pageData := merged.value;
      dataJsonUrls := dataJsonUrls + [Url(files[i].s, site.cfg)];
      i := i + 1;
    }
    assert files[i..] == [];
    r := Ok(PageData(JObj(pageData), dataJsonUrls));
  }

  /** One more file at the end of `data_files` is merged after all the others. */
  lemma {:induction false} MergeSnoc(data: map<string, Json>, urls: seq<string>, dfs: seq<Json>, d: Json, site: Site)
    ensures MergeFrom(data, urls, dfs + [d], site) ==
      match MergeFrom(data, urls, dfs, site)
      case Err(f) => Err(f)
      case Ok(acc) =>
        match LoadAsset(d, site)
        case Err(f) => Err(f)
        case Ok(v) =>
          match Update(acc.0, v)
          case Err(f) => Err(f)
          case Ok(data') => Ok((data', acc.1 + [Url(d.s, site.cfg)]))
    decreases |dfs|
  {
    if dfs == [] {
      assert [d][1..] == [];
    } else {
      assert (dfs + [d])[0] == dfs[0] && (dfs + [d])[1..] == dfs[1..] + [d];
      match LoadAsset(dfs[0], site)
      case Err(f) =>
      case Ok(v) =>
        match Update(data, v)
        case Err(f) =>
        case Ok(data') => MergeSnoc(data', urls + [Url(dfs[0].s, site.cfg)], dfs[1..], d, site);
    }
  }

  /** A key of the last file of `data_files` wins over every value merged before it. */
  lemma LaterFileOverrides(dfs: seq<Json>, d: Json, site: Site, fields: map<string, Json>, k: string)
    requires MergeFrom(map[], [], dfs + [d], site).Ok?
    requires LoadAsset(d, site) == Ok(JObj(fields)) && k in fields
    ensures var merged := MergeFrom(map[], [], dfs + [d], site).value.0;
      k in merged && merged[k] == fields[k]
  {
    MergeSnoc(map[], [], dfs, d, site);
  }

  /** Every entry of `data_files` is a string. */
  predicate AllPaths(dfs: seq<Json>) {
    forall i :: 0 <= i < |dfs| ==> dfs[i].JStr?
  }

  lemma AllPathsCons(dfs: seq<Json>)
    requires dfs != [] && dfs[0].JStr? && AllPaths(dfs[1..])
    ensures AllPaths(dfs)
  {
    forall i | 1 <= i < |dfs| ensures dfs[i].JStr? {
      assert dfs[i] == dfs[1..][i - 1];
    }
  }

  /** The URLs `url(df_path, config)` of a list of paths, in order. */
  function DataUrls(dfs: seq<Json>, cfg: Config): seq<string>
    requires AllPaths(dfs)
    decreases |dfs|
  {
    if dfs == [] then [] else [Url(dfs[0].s, cfg)] + DataUrls(dfs[1..], cfg)
  }

  /**
   * With a `data_files` list, every entry is a path and the page gets one URL per
   * entry, in declaration order, whether or not the file exists.
   */
  lemma {:induction false} MergeUrls(data: map<string, Json>, urls: seq<string>, dfs: seq<Json>, site: Site)
    requires MergeFrom(data, urls, dfs, site).Ok?
    ensures AllPaths(dfs)
    ensures MergeFrom(data, urls, dfs, site).value.1 == urls + DataUrls(dfs, site.cfg)
    decreases |dfs|
  {
    if dfs == [] {
      assert urls + [] == urls;
    } else {
      var u := Url(dfs[0].s, site.cfg);
      var urls' := urls + [u];
      var data' := MergeHead(data, urls, dfs, site);
      MergeUrls(data', urls', dfs[1..], site);
      AllPathsCons(dfs);
      var rest := DataUrls(dfs[1..], site.cfg);
      assert DataUrls(dfs, site.cfg) == [u] + rest;
      AppendAssoc(urls, [u], rest);
    }
  }

  /** A successful merge took its first file without a fault and went on from the merged data. */
  lemma MergeHead(data: map<string, Json>, urls: seq<string>, dfs: seq<Json>, site: Site) returns (data': map<string, Json>)
    requires dfs != [] && MergeFrom(data, urls, dfs, site).Ok?
    ensures dfs[0].JStr?
    ensures MergeFrom(data, urls, dfs, site) == MergeFrom(data', urls + [Url(dfs[0].s, site.cfg)], dfs[1..], site)
  {
    assert LoadAsset(dfs[0], site).Ok?;
    data' := Update(data, LoadAsset(dfs[0], site).value).value;
  }

  lemma AppendAssoc<T>(a: seq<T>, b: seq<T>, c: seq<T>)
    ensures a + b + c == a + (b + c)
  {
  }

  /** `DataUrls` holds one URL per path, the `i`-th for the `i`-th path. */
  lemma {:induction false} DataUrlsAt(dfs: seq<Json>, cfg: Config, i: int)
    requires AllPaths(dfs)
    requires 0 <= i < |dfs|
    ensures |DataUrls(dfs, cfg)| == |dfs| && DataUrls(dfs, cfg)[i] == Url(dfs[i].s, cfg)
    decreases |dfs|
  {
    if i > 0 {
      DataUrlsAt(dfs[1..], cfg, i - 1);
    } else if |dfs| > 1 {
      DataUrlsAt(dfs[1..], cfg, 0);
    }
  }

  /** A present `data_file` decides the page data alone, and its URL is the only one. */
  lemma DataFileWins(fields: map<string, Json>, site: Site)
    requires "data_file" in fields
    ensures var r := PageDataOf(JObj(fields), site);
      && (r.Ok? <==> fields["data_file"].JStr?)
      && (r.Ok? ==> r.value == PageData(LoadAsset(fields["data_file"], site).value, [Url(fields["data_file"].s, site.cfg)]))
  {
    var fm := JObj(fields);
    var df := fields["data_file"];
    assert HasKey(fm, "data_file") == Ok(true);
    assert Index(fm, "data_file") == Ok(df);
    if df.JStr? {
      var v := LoadAsset(df, site).value;
      assert PageDataOf(fm, site) == Ok(PageData(v, [Url(df.s, site.cfg)]));
    } else {
      assert LoadAsset(df, site).Err?;
    }
  }

  // ----- one page -----

  /** What rendering one page or item contributes: the hooks fired, the context rendered with, its info, or a fault. */
  datatype Step = Step(events: seq<Event>, context: Option<PageContext>, info: Option<PageInfo>, fault: Option<Fault>)

  /** `f"{config['base_url']}/{output_relative_path.lstrip('/')}"`. */
  function Canonical(outRel: string, cfg: Config): string {
    cfg.baseUrl + "/" + LStrip(outRel, Slash)
  }

  function ContextFor(fm: Json, pd: PageData, content: Option<string>, outRel: string, cfg: Config): PageContext {
    PageContext(fm, pd.data, pd.urls, content, Url(outRel, cfg), Canonical(outRel, cfg), Url(outRel, cfg))
  }

  /** `_render_and_save_output` and the `after_render_page` hook that follows it. */
  function RenderAndFinish(plugins: seq<Plugin>, site: Site, src: string, outRel: string, t: Template, ctx: PageContext, content: string): Step {
    var info := if site.engine.renders(t, ctx)
      then Some(PageInfo(src, PathJoin(site.cfg.outputDir, outRel), Url(outRel, site.cfg), ctx.frontMatter, content))
      else None;
    Step([PageHook(plugins, "after_render_page", src)], Some(ctx), info, None)
  }

  /** A regular page: source path under the pages directory, output path relative to it. */
  function PageStep(plugins: seq<Plugin>, site: Site, e: FileEntry): Step {
    var src := e.PathUnder(site.cfg.pagesDir);
    var before := PageHook(plugins, "before_render_page", src);
    match e.text
    case None => Step([before], None, None, Some(IOError))
    case Some(text) =>
      var fm := ParseFrontMatter(text, site.decode);
      match PageDataOf(fm.meta, site)
      case Err(f) => Step([before], None, None, Some(f))
      case Ok(pd) =>
        if !site.engine.compiles(fm.body) then Step([before], None, None, None)
        else
          var outRel := e.RelPath();
          var s := RenderAndFinish(plugins, site, src, outRel, FromString(fm.body), ContextFor(fm.meta, pd, None, outRel, site.cfg), fm.body);
          Step([before] + s.events, s.context, s.info, None)
  }

  /** `config["collections"][name]["output"]`: a missing `output` setting raises `KeyError`. */
  function OutputSetting(cfg: Config, name: string): Result<string> {
    OutputIn(cfg.collections, name)
  }

  function OutputIn(css: seq<CollectionSetting>, name: string): Result<string>
    decreases |css|
  {
    if css == [] then Err(KeyError(name))
    else if css[0].name == name then (if css[0].output.Some? then Ok(css[0].output.value) else Err(KeyError("output")))
    else OutputIn(css[1..], name)
  }

  /** A collection item: output path from the `output` setting and the source file's basename, rendered with its layout. */
  function ItemStep(plugins: seq<Plugin>, site: Site, output: Result<string>, item: Item): Step {
    match output
    case Err(f) => Step([], None, None, Some(f))
    case Ok(out) =>
      var src := item.path;
      var before := PageHook(plugins, "before_render_page", src);
      match Get(item.frontMatter, "layout")
      case Err(f) => Step([before], None, None, Some(f))
      case Ok(layout) =>
        if layout.None? || !Truthy(layout.value) then Step([before], None, None, None)
        else
          match PageDataOf(item.frontMatter, site)
          case Err(f) => Step([before], None, None, Some(f))
          case Ok(pd) =>
            if !site.engine.hasLayout(layout.value) then Step([before], None, None, None)
            else
              var outRel := PathJoin(out, Basename(item.path));
              var s := RenderAndFinish(plugins, site, src, outRel, Layout(layout.value),
                                       ContextFor(item.frontMatter, pd, Some(item.content), outRel, site.cfg), item.content);
              Step([before] + s.events, s.context, s.info, None)
  }

  /** The one page of `render_all_content`'s first loop, as that loop's body does it. */
  method RenderPage(reg: Registry, site: Site, e: FileEntry) returns (s: Step)
    ensures s == PageStep(reg.plugins, site, e)
  {
    var src := e.PathUnder(site.cfg.pagesDir);
    var outRel := e.RelPath();
    var calls := reg.RunHook("before_render_page");
    var events := [HookFired("before_render_page", Some(src), calls)];
    if e.text.None? {
      return Step(events, None, None, Some(IOError));
    }
    var fm := ParseFrontMatter(e.text.value, site.decode);
    var pd := AssemblePageData(fm.meta, site);
    if pd.Err? {
      return Step(events, None, None, Some(pd.fault));
    }
    if !site.engine.compiles(fm.body) {
      return Step(events, None, None, None);      // logged, page skipped
    }
    var ctx := PageContext(fm.meta, pd.value.data, pd.value.urls, None, Url(outRel, site.cfg), Canonical(outRel, site.cfg), Url(outRel, site.cfg));
    var info: Option<PageInfo> := None;
    if site.engine.renders(FromString(fm.body), ctx) {
      info := Some(PageInfo(src, PathJoin(site.cfg.outputDir, outRel), Url(outRel, site.cfg), fm.meta, fm.body));
    }
    calls := reg.RunHook("after_render_page");
    s := Step(events + [HookFired("after_render_page", Some(src), calls)], Some(ctx), info, None);
  }

  /** One item of `render_all_content`'s second loop, as that loop's body does it. */
  method RenderItem(reg: Registry, site: Site, collectionName: string, item: Item) returns (s: Step)
    ensures s == ItemStep(reg.plugins, site, OutputSetting(site.cfg, collectionName), item)
  {
    var output := OutputSetting(site.cfg, collectionName);
    if output.Err? {
      return Step([], None, None, Some(output.fault));
    }
    var src := item.path;
    var outRel := PathJoin(output.value, Basename(src));
    var calls := reg.RunHook("before_render_page");
    var events := [HookFired("before_render_page", Some(src), calls)];
    var layout := Get(item.frontMatter, "layout");
    if layout.Err? {
      return Step(events, None, None, Some(layout.fault));
    }
    if layout.value.None? || !Truthy(layout.value.value) {
      return Step(events, None, None, None);      // warning, item skipped
    }
    var pd := AssemblePageData(item.frontMatter, site);
    if pd.Err? {
      return Step(events, None, None, Some(pd.fault));
    }
    if !site.engine.hasLayout(layout.value.value) {
      return Step(events, None, None, None);      // logged, item skipped
    }
    var ctx := PageContext(item.frontMatter, pd.value.data, pd.value.urls, Some(item.content),
                           Url(outRel, site.cfg), Canonical(outRel, site.cfg), Url(outRel, site.cfg));
    var info: Option<PageInfo> := None;
    if site.engine.renders(Layout(layout.value.value), ctx) {
      info := Some(PageInfo(src, PathJoin(site.cfg.outputDir, outRel), Url(outRel, site.cfg), item.frontMatter, item.content));
    }
    calls := reg.RunHook("after_render_page");
    s := Step(events + [HookFired("after_render_page", Some(src), calls)], Some(ctx), info, None);
  }

  // ----- all pages -----

  /** The hooks fired so far, the infos kept so far, and the fault that stopped the build, if any. */
  datatype Rendering = Rendering(events: seq<Event>, infos: seq<PageInfo>, fault: Option<Fault>)

  function Then(r: Rendering, s: Step): Rendering {
    Rendering(r.events + s.events, r.infos + (if s.info.Some? then [s.info.value] else []), s.fault)
  }

  /** The first loop, from rendering `r` over the walk entries still to do; a fault ends it. */
  function PagesFrom(plugins: seq<Plugin>, site: Site, r: Rendering, es: seq<FileEntry>): Rendering
    decreases |es|
  {
    if es == [] || r.fault.Some? then r
    else if IsHtml(es[0]) then PagesFrom(plugins, site, Then(r, PageStep(plugins, site, es[0])), es[1..])
    else PagesFrom(plugins, site, r, es[1..])
  }

  function ItemsFrom(plugins: seq<Plugin>, site: Site, r: Rendering, name: string, items: seq<Item>): Rendering
    decreases |items|
  {
    if items == [] || r.fault.Some? then r
    else ItemsFrom(plugins, site, Then(r, ItemStep(plugins, site, OutputSetting(site.cfg, name), items[0])), name, items[1..])
  }

  function CollectionsFrom(plugins: seq<Plugin>, site: Site, r: Rendering, cols: seq<Collection>): Rendering
    decreases |cols|
  {
    if cols == [] || r.fault.Some? then r
    else CollectionsFrom(plugins, site, ItemsFrom(plugins, site, r, cols[0].name, cols[0].items), cols[1..])
  }

  const NothingRendered: Rendering := Rendering([], [], None)

  /** `render_all_content(config, site_data, collections_data)`. */
  function RenderedContent(plugins: seq<Plugin>, site: Site, cols: seq<Collection>): Rendering {
    CollectionsFrom(plugins, site, PagesFrom(plugins, site, NothingRendered, site.disk.Walk(site.cfg.pagesDir)), cols)
  }

  method RenderAllContent(reg: Registry, site: Site, cols: seq<Collection>) returns (r: Rendering)
    ensures r == RenderedContent(reg.plugins, site, cols)
  {
    r := RenderPages(reg, site, site.disk.Walk(site.cfg.pagesDir));
    var c := 0;
    while c < |cols|
      invariant 0 <= c <= |cols|
      invariant CollectionsFrom(reg.plugins, site, r, cols[c..]) == RenderedContent(reg.plugins, site, cols)
    {
      if r.fault.Some? {
        return;                               // the exception escapes `render_all_content`
      }
      assert cols[c..][0] == cols[c] && cols[c..][1..] == cols[c + 1..];
      r := RenderItems(reg, site, r, cols[c].name, cols[c].items);
      c := c + 1;
    }
    assert cols[c..] == [];
  }

  /** The first loop of `render_all_content`: every `.html` file of the pages walk, until one raises. */
  method RenderPages(reg: Registry, site: Site, pages: seq<FileEntry>) returns (r: Rendering)
    ensures r == PagesFrom(reg.plugins, site, NothingRendered, pages)
  {
    r := NothingRendered;
    var i := 0;
    while i < |pages|
      invariant 0 <= i <= |pages| && r.fault.None?
      invariant PagesFrom(reg.plugins, site, r, pages[i..]) == PagesFrom(reg.plugins, site, NothingRendered, pages)
    {
      assert pages[i..][0] == pages[i] && pages[i..][1..] == pages[i + 1..];
      if EndsWith(pages[i].name, ".html") {
        var s := RenderPage(reg, site, pages[i]);
        r := Then(r, s);
        if r.fault.Some? {
          return;
        }
      }
      i := i + 1;
    }
    assert pages[i..] == [];
  }

  /** The loop over one collection's items, from rendering `r0`, until one raises. */
  method RenderItems(reg: Registry, site: Site, r0: Rendering, name: string, items: seq<Item>) returns (r: Rendering)
    requires r0.fault.None?
    ensures r == ItemsFrom(reg.plugins, site, r0, name, items)
  {
    r := r0;
    var j := 0;
    while j < |items|
      invariant 0 <= j <= |items| && r.fault.None?
      invariant ItemsFrom(reg.plugins, site, r, name, items[j..]) == ItemsFrom(reg.plugins, site, r0, name, items)
    {
      assert items[j..][0] == items[j] && items[j..][1..] == items[j + 1..];
      var s := RenderItem(reg, site, name, items[j]);
      r := Then(r, s);
      if r.fault.Some? {
        return;
      }
      j := j + 1;
    }
    assert items[j..] == [];
  }

  // ----- properties -----

  /** The page reached template creation: it was read and its page data assembled. */
  predicate PageReady(site: Site, e: FileEntry) {
    e.text.Some? && PageDataOf(ParseFrontMatter(e.text.value, site.decode).meta, site).Ok?
  }

  /**
   * Around a page, `before_render_page` always fires first; `after_render_page` fires
   * exactly when its template was created, whether or not rendering then succeeds; the
   * page is kept for the sitemap and feed exactly when rendering succeeds; only an
   * unreadable file or failing page data raise.
   */
  lemma PageHooks(plugins: seq<Plugin>, site: Site, e: FileEntry)
    ensures var s := PageStep(plugins, site, e);
      var src := e.PathUnder(site.cfg.pagesDir);
      var created := PageReady(site, e) && site.engine.compiles(ParseFrontMatter(e.text.value, site.decode).body);
      && s.events == [PageHook(plugins, "before_render_page", src)] + (if created then [PageHook(plugins, "after_render_page", src)] else [])
      && (s.fault.Some? <==> !PageReady(site, e))
      && (s.info.Some? <==> created && site.engine.renders(FromString(ParseFrontMatter(e.text.value, site.decode).body), s.context.value))
  {
  }

  /**
   * A page's canonical link is its URL with the base URL in front (relative mode) or its
   * URL itself (absolute mode), and its final URL is its URL.
   */
  lemma ContextUrls(fm: Json, pd: PageData, content: Option<string>, outRel: string, cfg: Config)
    ensures var ctx := ContextFor(fm, pd, content, outRel, cfg);
      && ctx.url == ctx.absoluteFinalUrl == Url(outRel, cfg)
      && (cfg.useAbsoluteUrls ==> ctx.canonical == ctx.url)
      && (!cfg.useAbsoluteUrls ==> ctx.canonical == cfg.baseUrl + ctx.url)
  {
    if !cfg.useAbsoluteUrls {
      AppendAssoc(cfg.baseUrl, "/", LStrip(outRel, Slash));
    }
  }

  /**
   * A rendered page's URL and final URL are `url` of its path relative to the pages
   * directory, its canonical link agrees with that URL, and the info kept for it has
   * that URL and the page's source path.
   */
  lemma PageUrls(plugins: seq<Plugin>, site: Site, e: FileEntry)
    requires PageStep(plugins, site, e).context.Some?
    ensures var s := PageStep(plugins, site, e); var ctx := s.context.value;
      && ctx.url == ctx.absoluteFinalUrl == Url(e.RelPath(), site.cfg)
      && (site.cfg.useAbsoluteUrls ==> ctx.canonical == ctx.url)
      && (!site.cfg.useAbsoluteUrls ==> ctx.canonical == site.cfg.baseUrl + ctx.url)
      && (s.info.Some? ==> s.info.value.url == ctx.url && s.info.value.sourcePath == e.PathUnder(site.cfg.pagesDir))
  {
    var src := e.PathUnder(site.cfg.pagesDir);
    var outRel := e.RelPath();
    var fm := ParseFrontMatter(e.text.value, site.decode);
    var pd := PageDataOf(fm.meta, site).value;
    var ctx := ContextFor(fm.meta, pd, None, outRel, site.cfg);
    var r := RenderAndFinish(plugins, site, src, outRel, FromString(fm.body), ctx, fm.body);
    var s := PageStep(plugins, site, e);
    assert s.context == r.context && s.info == r.info;
    FinishFacts(plugins, site, src, outRel, FromString(fm.body), ctx, fm.body);
    ContextUrls(fm.meta, pd, None, outRel, site.cfg);
  }

  /** `_render_and_save_output` renders with the context it is given and records the page under its output path and URL. */
  lemma FinishFacts(plugins: seq<Plugin>, site: Site, src: string, outRel: string, t: Template, ctx: PageContext, content: string)
    ensures var r := RenderAndFinish(plugins, site, src, outRel, t, ctx, content);
      && r.context == Some(ctx)
      && (r.info.Some? <==> site.engine.renders(t, ctx))
      && (r.info.Some? ==> r.info.value == PageInfo(src, PathJoin(site.cfg.outputDir, outRel), Url(outRel, site.cfg), ctx.frontMatter, content))
  {
  }

  /**
   * Around a collection item: a missing `output` setting raises before any hook; otherwise
   * `before_render_page` fires; an item without a truthy `layout`, or whose layout does
   * not load, is skipped without `after_render_page`; a created template gets
   * `after_render_page` whether or not rendering succeeds, and the item is kept exactly
   * when its layout renders; only `.get` on front matter that is not a mapping and
   * failing page data raise.
   */
  lemma ItemHooks(plugins: seq<Plugin>, site: Site, output: Result<string>, item: Item)
    ensures var s := ItemStep(plugins, site, output, item);
      var layout := Get(item.frontMatter, "layout");
      var wanted := layout.Ok? && layout.value.Some? && Truthy(layout.value.value);
      var created := wanted && PageDataOf(item.frontMatter, site).Ok? && site.engine.hasLayout(layout.value.value);
      && (output.Err? ==> s == Step([], None, None, Some(output.fault)))
      && (output.Ok? ==> s.events == [PageHook(plugins, "before_render_page", item.path)]
                                     + (if created then [PageHook(plugins, "after_render_page", item.path)] else []))
      && (output.Ok? ==> (s.fault.Some? <==> layout.Err? || (wanted && PageDataOf(item.frontMatter, site).Err?)))
      && (s.context.Some? <==> output.Ok? && created)
      && (s.info.Some? ==> s.context.Some?)
      && (s.info.Some? <==> output.Ok? && created && site.engine.renders(Layout(layout.value.value), s.context.value))
  {
  }

  /** A collection item is written under its `output` directory with only its source file's basename. */
  lemma ItemUrls(plugins: seq<Plugin>, site: Site, out: string, item: Item)
    requires ItemStep(plugins, site, Ok(out), item).context.Some?
    ensures var s := ItemStep(plugins, site, Ok(out), item); var ctx := s.context.value;
      var outRel := PathJoin(out, Basename(item.path));
      && ctx.url == ctx.absoluteFinalUrl == Url(outRel, site.cfg)
      && (site.cfg.useAbsoluteUrls ==> ctx.canonical == ctx.url)
      && (!site.cfg.useAbsoluteUrls ==> ctx.canonical == site.cfg.baseUrl + ctx.url)
      && ctx.content == Some(item.content)
      && (s.info.Some? ==> s.info.value.url == ctx.url && s.info.value.outputPath == PathJoin(site.cfg.outputDir, outRel))
  {
    var got := Get(item.frontMatter, "layout");
    assert got.Ok? && got.value.Some?;
    var layout := got.value.value;
    var pdr := PageDataOf(item.frontMatter, site);
    assert pdr.Ok? && site.engine.hasLayout(layout);
    var pd := pdr.value;
    var outRel := PathJoin(out, Basename(item.path));
    var ctx := ContextFor(item.frontMatter, pd, Some(item.content), outRel, site.cfg);
    var r := RenderAndFinish(plugins, site, item.path, outRel, Layout(layout), ctx, item.content);
    var s := ItemStep(plugins, site, Ok(out), item);
    assert s.context == r.context && s.info == r.info;
    FinishFacts(plugins, site, item.path, outRel, Layout(layout), ctx, item.content);
    ContextUrls(item.frontMatter, pd, Some(item.content), outRel, site.cfg);
  }

  /**
   * For an item in a sub-directory of its collection, the URL the loader records (used
   * by the feed) is not the URL the page is rendered at: the loader keeps the
   * sub-directory, rendering keeps only the basename.
   */
  lemma NestedItemUrlDiffers(cfg: Config, decode: JsonDecoder, text: string)
    requires !cfg.useAbsoluteUrls
    ensures var cs := CollectionSetting("posts", Some("content/posts"), Some("blog"));
      var e := FileEntry("2024", "a.html", Some(text));
      var item := MakeItem(cs, "content/posts", e, text, cfg, decode);
      && item.url == "/blog/2024/a.html"
      && Url(PathJoin("blog", Basename(item.path)), cfg) == "/blog/a.html"
  {
    var cs := CollectionSetting("posts", Some("content/posts"), Some("blog"));
    var e := FileEntry("2024", "a.html", Some(text));
    var item := MakeItem(cs, "content/posts", e, text, cfg, decode);
    NestedSourcePath();
    OutputPaths();
    NestedBasename();
    assert item.path == "content/posts/2024/a.html";
    assert item.outputPathRelative == "blog/2024/a.html";
    NestedUrls(cfg);
  }

  lemma NestedSourcePath()
    ensures PathJoin("content/posts", "2024") == "content/posts/2024"
    ensures PathJoin("content/posts/2024", "a.html") == "content/posts/2024/a.html"
  {
    JoinRelative("content/posts", "2024");
    JoinRelative("content/posts/2024", "a.html");
  }

  /** The loader's output path keeps the sub-directory; the rendered one has only the basename. */
  lemma OutputPaths()
    ensures PathJoin("2024", "a.html") == "2024/a.html"
    ensures PathJoin("blog", "2024/a.html") == "blog/2024/a.html"
    ensures PathJoin("blog", "a.html") == "blog/a.html"
  {
    JoinSubdir();
    JoinNested();
    JoinFlat();
  }

  lemma JoinSubdir()
    ensures PathJoin("2024", "a.html") == "2024/a.html"
  {
    JoinRelative("2024", "a.html");
  }

  lemma JoinNested()
    ensures PathJoin("blog", "2024/a.html") == "blog/2024/a.html"
  {
    JoinRelative("blog", "2024/a.html");
  }

  lemma JoinFlat()
    ensures PathJoin("blog", "a.html") == "blog/a.html"
  {
    JoinRelative("blog", "a.html");
  }

  /** Joining a relative path to a directory without a trailing slash puts one slash between them. */
  lemma JoinRelative(a: string, b: string)
    requires a != [] && a[|a| - 1] != '/' && b != [] && b[0] != '/'
    ensures PathJoin(a, b) == a + "/" + b
  {
    assert !StartsWith(b, "/") by {
      assert b[..1][0] == b[0];
    }
  }

  lemma NestedBasename()
    ensures Basename("content/posts/2024/a.html") == "a.html"
  {
    BasenameUnique("content/posts/2024/a.html", "a.html");
  }

  lemma NestedUrls(cfg: Config)
    requires !cfg.useAbsoluteUrls
    ensures Url("blog/2024/a.html", cfg) == "/blog/2024/a.html"
    ensures Url("blog/a.html", cfg) == "/blog/a.html"
  {
    RelativeUrlOfRelative("blog/2024/a.html", cfg);
    RelativeUrlOfRelative("blog/a.html", cfg);
  }

  /** In relative mode the URL of a path without a leading slash is that path behind one slash. */
  lemma RelativeUrlOfRelative(p: string, cfg: Config)
    requires !cfg.useAbsoluteUrls && p != [] && p[0] != '/'
    ensures Url(p, cfg) == "/" + p
  {
    assert LStrip(p, Slash) == p;
  }

  /** Every event of `render_all_content` is a `before_render_page` or `after_render_page` hook. */
  predicate AllRenderHooks(events: seq<Event>) {
    forall e :: e in events ==> IsRenderHook(e)
  }

  predicate IsRenderHook(e: Event) {
    e.HookFired? && (e.hook == "before_render_page" || e.hook == "after_render_page")
  }

  lemma PageStepEvents(plugins: seq<Plugin>, site: Site, e: FileEntry)
    ensures AllRenderHooks(PageStep(plugins, site, e).events)
  {
    PageHooks(plugins, site, e);
    var src := e.PathUnder(site.cfg.pagesDir);
    var created := PageReady(site, e) && site.engine.compiles(ParseFrontMatter(e.text.value, site.decode).body);
    HookPairEvents(PageStep(plugins, site, e), PageHook(plugins, "before_render_page", src), PageHook(plugins, "after_render_page", src), created);
  }

  lemma ItemStepEvents(plugins: seq<Plugin>, site: Site, output: Result<string>, item: Item)
    ensures AllRenderHooks(ItemStep(plugins, site, output, item).events)
  {
    ItemHooks(plugins, site, output, item);
    if output.Ok? {
      var layout := Get(item.frontMatter, "layout");
      var wanted := layout.Ok? && layout.value.Some? && Truthy(layout.value.value);
      var created := wanted && PageDataOf(item.frontMatter, site).Ok? && site.engine.hasLayout(layout.value.value);
      HookPairEvents(ItemStep(plugins, site, output, item), PageHook(plugins, "before_render_page", item.path), PageHook(plugins, "after_render_page", item.path), created);
    }
  }

  /** A step that fires a `before_render_page` hook and possibly an `after_render_page` hook fires only page hooks. */
  lemma HookPairEvents(s: Step, before: Event, after: Event, created: bool)
    requires IsRenderHook(before) && IsRenderHook(after)
    requires s.events == [before] + (if created then [after] else [])
    ensures AllRenderHooks(s.events)
  {
  }

  lemma {:induction false} PagesFromEvents(plugins: seq<Plugin>, site: Site, r: Rendering, es: seq<FileEntry>)
    requires AllRenderHooks(r.events)
    ensures AllRenderHooks(PagesFrom(plugins, site, r, es).events)
    decreases |es|
  {
    if es != [] && r.fault.None? {
      if IsHtml(es[0]) {
        var s := PageStep(plugins, site, es[0]);
        PageStepEvents(plugins, site, es[0]);
        assert AllRenderHooks(Then(r, s).events);
        PagesFromEvents(plugins, site, Then(r, s), es[1..]);
      } else {
        PagesFromEvents(plugins, site, r, es[1..]);
      }
    }
  }

  lemma {:induction false} ItemsFromEvents(plugins: seq<Plugin>, site: Site, r: Rendering, name: string, items: seq<Item>)
    requires AllRenderHooks(r.events)
    ensures AllRenderHooks(ItemsFrom(plugins, site, r, name, items).events)
    decreases |items|
  {
    if items != [] && r.fault.None? {
      var s := ItemStep(plugins, site, OutputSetting(site.cfg, name), items[0]);
      ItemStepEvents(plugins, site, OutputSetting(site.cfg, name), items[0]);
      assert AllRenderHooks(Then(r, s).events);
      ItemsFromEvents(plugins, site, Then(r, s), name, items[1..]);
    }
  }

  lemma {:induction false} CollectionsFromEvents(plugins: seq<Plugin>, site: Site, r: Rendering, cols: seq<Collection>)
    requires AllRenderHooks(r.events)
    ensures AllRenderHooks(CollectionsFrom(plugins, site, r, cols).events)
    decreases |cols|
  {
    if cols != [] && r.fault.None? {
      ItemsFromEvents(plugins, site, r, cols[0].name, cols[0].items);
      CollectionsFromEvents(plugins, site, ItemsFrom(plugins, site, r, cols[0].name, cols[0].items), cols[1..]);
    }
  }

  /** Rendering fires only page hooks. */
  lemma RenderedEvents(plugins: seq<Plugin>, site: Site, cols: seq<Collection>)
    ensures AllRenderHooks(RenderedContent(plugins, site, cols).events)
  {
    PagesFromEvents(plugins, site, NothingRendered, site.disk.Walk(site.cfg.pagesDir));
    CollectionsFromEvents(plugins, site, PagesFrom(plugins, site, NothingRendered, site.disk.Walk(site.cfg.pagesDir)), cols);
  }
}

=== FILE: build_stages.dfy ===
/**
 * The stages after rendering: `copy_static`, `copy_assets`, `generate_sitemap` and
 * `generate_rss_feed`, each with the hooks it fires. File copies and XML output are
 * recorded as events holding what would be written.
 */
module BuildStages {
  import opened Wrappers
  import opened JsonValues
  import opened SiteInputs
  import opened DataCollectionsLoader
  import opened PluginSystem
  import opened RssFeed
  import opened BuildTrace
  import opened BuildPages

  // ----- copies -----

  /** `copy_static(config)`: the tree is copied only when the static directory exists. */
  function StaticStage(plugins: seq<Plugin>, site: Site): seq<Event> {
    [Hook(plugins, "before_copy_static"), StaticCopied(site.disk.Exists(site.cfg.staticDir)), Hook(plugins, "after_copy_static")]
  }

  /** `copy_assets(config)`: the tree is copied only when the assets directory exists. */
  function AssetsStage(plugins: seq<Plugin>, site: Site): seq<Event> {
    [Hook(plugins, "before_copy_assets"), AssetsCopied(site.disk.Exists(site.cfg.assetsDir)), Hook(plugins, "after_copy_assets")]
  }

  method CopyStatic(reg: Registry, site: Site) returns (events: seq<Event>)
    ensures events == StaticStage(reg.plugins, site)
  {
    var before := reg.RunHook("before_copy_static");
    var copied := site.disk.Exists(site.cfg.staticDir);     // a missing directory is only a warning
    var after := reg.RunHook("after_copy_static");
    events := [HookFired("before_copy_static", None, before), StaticCopied(copied), HookFired("after_copy_static", None, after)];
  }

  method CopyAssets(reg: Registry, site: Site) returns (events: seq<Event>)
    ensures events == AssetsStage(reg.plugins, site)
  {
    var before := reg.RunHook("before_copy_assets");
    var copied := site.disk.Exists(site.cfg.assetsDir);
    var after := reg.RunHook("after_copy_assets");
    events := [HookFired("before_copy_assets", None, before), AssetsCopied(copied), HookFired("after_copy_assets", None, after)];
  }

  // ----- sitemap -----

  /** The `<loc>` entries of the sitemap, one per rendered page, in rendering order. */
  function SitemapLocs(infos: seq<PageInfo>): seq<string>
    decreases |infos|
  {
    if infos == [] then [] else SitemapLocs(infos[..|infos| - 1]) + [infos[|infos| - 1].url]
  }

  function SitemapStage(plugins: seq<Plugin>, infos: seq<PageInfo>): seq<Event> {
    [Hook(plugins, "before_generate_sitemap"), SitemapWritten(SitemapLocs(infos)), Hook(plugins, "after_generate_sitemap")]
  }

  /** `generate_sitemap(config, rendered_pages_info)`. */
  method GenerateSitemap(reg: Registry, infos: seq<PageInfo>) returns (events: seq<Event>)
    ensures events == SitemapStage(reg.plugins, infos)
  {
    var before := reg.RunHook("before_generate_sitemap");
    var locs: seq<string> := [];
    var i := 0;
    while i < |infos|
      invariant 0 <= i <= |infos|
      invariant locs == SitemapLocs(infos[..i])
    {
      locs := locs + [infos[i].url];
      assert infos[..i + 1][..i] == infos[..i];
      i := i + 1;
    }
    assert infos[..i] == infos;
    var after := reg.RunHook("after_generate_sitemap");
    events := [HookFired("before_generate_sitemap", None, before), SitemapWritten(locs), HookFired("after_generate_sitemap", None, after)];
  }

  /**
   * The sitemap lists every rendered page exactly at its position, by its URL: nothing
   * is sorted, merged or dropped, so a URL rendered twice is listed twice.
   */
  lemma {:induction false} SitemapListsEveryPage(infos: seq<PageInfo>)
    ensures |SitemapLocs(infos)| == |infos|
    ensures forall i :: 0 <= i < |infos| ==> SitemapLocs(infos)[i] == infos[i].url
    decreases |infos|
  {
    if infos != [] {
      var init := infos[..|infos| - 1];
      SitemapListsEveryPage(init);
      assert forall i :: 0 <= i < |init| ==> init[i] == infos[i];
    }
  }

  /** The sitemap of pages then items is the pages' sitemap followed by the items'. */
  lemma {:induction false} SitemapAppend(a: seq<PageInfo>, b: seq<PageInfo>)
    ensures SitemapLocs(a + b) == SitemapLocs(a) + SitemapLocs(b)
    decreases |b|
  {
    if b == [] {
      assert a + b == a;
    } else {
      var b' := b[..|b| - 1];
      assert (a + b)[..|a + b| - 1] == a + b';
      SitemapAppend(a, b');
    }
  }

  // ----- RSS -----

  /** `collections_data.get("posts", [])`: the items of the `posts` collection, if it was loaded. */
  function PostsOf(cols: seq<Collection>): seq<Item>
    decreases |cols|
  {
    if cols == [] then []
    else if cols[|cols| - 1].name == "posts" then cols[|cols| - 1].items
    else PostsOf(cols[..|cols| - 1])
  }

  /**
   * `generate_rss_feed(config, collections_data)`: the events it produces and the fault
   * that escapes it. With no posts it returns right after `before_generate_rss_feed`;
   * a feed that ElementTree cannot serialise raises before anything is written.
   */
  function RssStage(plugins: seq<Plugin>, site: Site, cols: seq<Collection>): (r: (seq<Event>, Option<Fault>))
    ensures |r.0| >= 1 && r.0[0] == Hook(plugins, "before_generate_rss_feed")
    ensures |r.0| == 1 || (|r.0| == 3 && r.0[1].FeedWritten? && r.0[2] == Hook(plugins, "after_generate_rss_feed"))
  {
    var before := Hook(plugins, "before_generate_rss_feed");
    var posts := PostsOf(cols);
    if posts == [] then ([before], None)
    else
      match Stamps(posts)
      case Err(f) => ([before], Some(f))
      case Ok(stamps) =>
        StampsOk(posts);
        var feed := Feed(ChannelOf(site.cfg), FeedItems(posts, stamps));
        if !Serializable(feed) then ([before], Some(TypeError))
        else ([before, FeedWritten(feed), Hook(plugins, "after_generate_rss_feed")], None)
  }

  method GenerateRssFeed(reg: Registry, site: Site, cols: seq<Collection>) returns (events: seq<Event>, fault: Option<Fault>)
    ensures (events, fault) == RssStage(reg.plugins, site, cols)
  {
    var calls := reg.RunHook("before_generate_rss_feed");
    events := [HookFired("before_generate_rss_feed", None, calls)];
    var posts := PostsOf(cols);
    if posts == [] {
      return events, None;                    // no feed, no `after_generate_rss_feed`
    }
    var stamped := StampPosts(posts);
    if stamped.Err? {
      return events, Some(stamped.fault);
    }
    var stamps := stamped.value;
    StampsOk(posts);
    var items := CollectFeedItems(posts, stamps);
    assert Stamps(posts) == Ok(stamps);
    if !Serializable(Feed(ChannelOf(site.cfg), items)) {
      return events, Some(TypeError);         // `tostring` raises
    }
    calls := reg.RunHook("after_generate_rss_feed");
    events := events + [FeedWritten(Feed(ChannelOf(site.cfg), items)), HookFired("after_generate_rss_feed", None, calls)];
    fault := None;
    assert events == [Hook(reg.plugins, "before_generate_rss_feed"), FeedWritten(Feed(ChannelOf(site.cfg), FeedItems(posts, stamps))), Hook(reg.plugins, "after_generate_rss_feed")];
  }

  /** The item loop: the ten newest posts, newest first, each as an `<item>`. */
  method CollectFeedItems(posts: seq<Item>, stamps: seq<Stamp>) returns (items: seq<FeedItem>)
    requires |stamps| == |posts| && AllObjects(posts)
    ensures items == FeedItems(posts, stamps)
  {
    var top := FeedOrder(stamps);
    items := [];
    var k := 0;
    while k < |top|
      invariant 0 <= k <= |top|
      invariant items == FeedItems(posts, stamps)[..k]
    {
      items := items + [FeedItemOf(posts[top[k]], stamps[top[k]])];
      assert FeedItems(posts, stamps)[..k + 1] == FeedItems(posts, stamps)[..k] + [FeedItems(posts, stamps)[k]];
      k := k + 1;
    }
  }

  /** The stamping loop: `_date_obj` for each post, stopping at the first post that faults. */
  method StampPosts(posts: seq<Item>) returns (r: Result<seq<Stamp>>)
    ensures r == Stamps(posts)
  {
    var stamps: seq<Stamp> := [];
    var i := 0;
    while i < |posts|
      invariant 0 <= i <= |posts|
      invariant Stamps(posts[..i]) == Ok(stamps)
    {
      assert posts[..i + 1][..i] == posts[..i];
      var date := Get(posts[i].frontMatter, "date");
      if date.Err? {
        assert Stamps(posts[..i + 1]) == Err(date.fault);
        StampsPrefixFault(posts, i + 1);
        return Err(date.fault);
      }
      stamps := stamps + [StampOf(date.value)];
      i := i + 1;
    }
    assert posts[..i] == posts;
    return Ok(stamps);
  }

  /** Once stamping faults on a prefix of the posts, it faults on all of them, with the same fault. */
  lemma {:induction false} StampsPrefixFault(posts: seq<Item>, n: nat)
    requires n <= |posts| && Stamps(posts[..n]).Err?
    ensures Stamps(posts) == Stamps(posts[..n])
    decreases |posts| - n
  {
    if n < |posts| {
      assert posts[..n + 1][..n] == posts[..n];
      StampsPrefixFault(posts, n + 1);
    } else {
      assert posts[..n] == posts;
    }
  }

  /**
   * The feed stage: no posts means no feed and no `after_generate_rss_feed`; front
   * matter that is not an object raises `AttributeError` while stamping; otherwise the
   * feed of the ten newest posts (or all of them) under the configured channel is
   * written, followed by `after_generate_rss_feed`, exactly when ElementTree can
   * serialise it, and `TypeError` escapes when it cannot.
   */
  lemma RssOutcome(plugins: seq<Plugin>, site: Site, cols: seq<Collection>)
    ensures var (events, fault) := RssStage(plugins, site, cols); var posts := PostsOf(cols);
      && events[0] == Hook(plugins, "before_generate_rss_feed")
      && (posts == [] ==> events == [events[0]] && fault.None?)
      && (fault.Some? ==> events == [events[0]])
      && (posts != [] && !AllObjects(posts) ==> fault == Some(AttributeError))
      && (posts != [] && Stamps(posts).Ok? ==>
            var feed := Feed(ChannelOf(site.cfg), FeedItems(posts, Stamps(posts).value));
            && |feed.items| == Min(MaxFeedItems, |posts|)
            && (fault.None? <==> Serializable(feed))
            && (fault.Some? ==> fault == Some(TypeError))
            && (fault.None? ==> events == [events[0], FeedWritten(feed), Hook(plugins, "after_generate_rss_feed")]))
  {
    var posts := PostsOf(cols);
    StampsOk(posts);
    if posts != [] && !AllObjects(posts) {
      StampsFault(posts);
    }
  }

  /** Stamping fails only with `AttributeError`, the fault of `.get` on front matter that is not an object. */
  lemma {:induction false} StampsFault(posts: seq<Item>)
    ensures Stamps(posts).Err? ==> Stamps(posts).fault == AttributeError
    decreases |posts|
  {
    if posts != [] {
      StampsFault(posts[..|posts| - 1]);
    }
  }

  /** With distinct collection names, the feed reads exactly the loaded `posts` collection, or nothing. */
  lemma {:induction false} PostsAreThePostsCollection(cols: seq<Collection>)
    requires forall i, j :: 0 <= i < j < |cols| ==> cols[i].name != cols[j].name
    ensures forall j :: 0 <= j < |cols| && cols[j].name == "posts" ==> PostsOf(cols) == cols[j].items
    ensures (forall j :: 0 <= j < |cols| ==> cols[j].name != "posts") ==> PostsOf(cols) == []
    decreases |cols|
  {
    if cols != [] {
      var init := cols[..|cols| - 1];
      assert forall i :: 0 <= i < |init| ==> init[i] == cols[i];
      PostsAreThePostsCollection(init);
    }
  }
}

=== FILE: build_trace.dfy ===
/** The observable steps of a build, in the order they happen. */
module BuildTrace {
  import opened Wrappers
  import opened JsonValues
  import opened PluginSystem
  import opened DataCollectionsLoader
  import opened RssFeed

  datatype Event =
    | PluginsLoaded(plugins: seq<Plugin>)
    | HookFired(hook: string, page: Option<string>, calls: seq<Invocation>)   // `run_hook(hook, ...)` and the calls it made
    | OutputCleared(existed: bool)                // the output directory removed (when present) and re-created
    | DataLoaded(data: map<string, Json>)
    | CollectionsLoaded(collections: seq<Collection>)
    | StaticCopied(copied: bool)                  // false: static directory missing, warning only
    | AssetsCopied(copied: bool)                  // false: assets directory missing, warning only
    | SitemapWritten(locs: seq<string>)
    | FeedWritten(feed: Feed)
    | Aborted(fault: Fault)                       // an exception escaped `build_command`

  /** `run_hook(name, ...)` on a registry holding `plugins`, for a hook not tied to a page. */
  function Hook(plugins: seq<Plugin>, name: string): (e: Event)
    ensures e.HookFired? && e.hook == name && e.page.None?
  {
    HookFired(name, None, Dispatch(plugins, name))
  }

  /** `run_hook(name, page_path=page, ...)`. */
  function PageHook(plugins: seq<Plugin>, name: string, page: string): (e: Event)
    ensures e.HookFired? && e.hook == name && e.page == Some(page)
  {
    HookFired(name, Some(page), Dispatch(plugins, name))
  }
}

=== FILE: data_collections_loader.dfy ===
/**
 * `load_data_files` (global data from the data directory) and `load_collections`
 * (collection items with parsed front matter, output paths and URLs).
 */
module DataCollectionsLoader {
  import opened Wrappers
  import opened PyText
  import opened JsonValues
  import opened SiteInputs
  import opened FrontMatterParser
  import opened UrlHelpers

  // ----- load_data_files -----

  /** `os.path.splitext(file_name)[0]`: the key a data file is stored under. */
  function Stem(e: FileEntry): string {
    SplitExt(e.name).0
  }

  /** The extension, lower-cased, is `.json`. */
  predicate IsJsonFile(e: FileEntry) {
    AsciiLower(SplitExt(e.name).1) == ".json"
  }

  /**
   * What one walked file contributes to the data map: its stem and decoded value, or
   * None for a non-JSON name, an unreadable file or a decode error (each only logged).
   */
  function Contribution(e: FileEntry, decode: JsonDecoder): Option<(string, Json)> {
    if IsJsonFile(e) && e.text.Some? then
      match decode(e.text.value)
      case Some(v) => Some((Stem(e), v))
      case None => None
    else None
  }

  /** The contributions of a walk, in walk order. */
  function Contributions(es: seq<FileEntry>, decode: JsonDecoder): (ps: seq<Option<(string, Json)>>)
    ensures |ps| == |es|
    ensures forall i :: 0 <= i < |es| ==> ps[i] == Contribution(es[i], decode)
  {
    seq(|es|, i requires 0 <= i < |es| => Contribution(es[i], decode))
  }

  /** The map built by storing each contribution in turn, a later one overwriting an earlier one. */
  function MapOf(ps: seq<Option<(string, Json)>>): map<string, Json>
    decreases |ps|
  {
    if ps == [] then map[]
    else
      var m := MapOf(ps[..|ps| - 1]);
      match ps[|ps| - 1]
      case Some(kv) => m[kv.0 := kv.1]
      case None => m
  }

  /** The data directory is usable: set, non-empty and present. */
  predicate HasDataDir(cfg: Config, disk: Disk) {
    IsSet(cfg.dataDir) && disk.Exists(cfg.dataDir.value)
  }

  function SiteData(cfg: Config, disk: Disk, decode: JsonDecoder): map<string, Json> {
    if HasDataDir(cfg, disk) then MapOf(Contributions(disk.Walk(cfg.dataDir.value), decode)) else map[]
  }

  /**
   * `load_data_files(config)`: one flat map keyed by file stem. The nested-key loop of
   * the source never runs, since a bare file name holds no separator.
   */
  method LoadDataFiles(cfg: Config, disk: Disk, decode: JsonDecoder) returns (data: map<string, Json>)
    ensures data == SiteData(cfg, disk, decode)
    ensures !HasDataDir(cfg, disk) ==> data == map[]
  {
    data := map[];
    if !IsSet(cfg.dataDir) || !disk.Exists(cfg.dataDir.value) {
      return;
    }
    var files := disk.Walk(cfg.dataDir.value);
    ghost var ps := Contributions(files, decode);
    assert ps[..0] == [];
    var i := 0;
    assert data == MapOf(ps[..i]);
    while i < |files|
      invariant 0 <= i <= |files|
      invariant data == MapOf(ps[..i])
    {
      var e := files[i];
      var (name, ext) := SplitExt(e.name);
      MapOfStep(ps, i);
      assert ps[i] == Contribution(e, decode);
      ghost var before := data;
      if AsciiLower(ext) == ".json" {
        match e.text {
          case Some(t) =>
            match decode(t) {
              case Some(v) => data := data[name := v];
              case None =>        // logged, map untouched
            }
          case None =>            // logged, map untouched
        }
      }
      assert data == if ps[i].Some? then before[ps[i].value.0 := ps[i].value.1] else before;
      assert data == MapOf(ps[..i + 1]);
      i := i + 1;
    }
    assert ps[..i] == ps;
  }

  /** Storing the contribution at position `i` extends the map built from those before it. */
  lemma MapOfStep(ps: seq<Option<(string, Json)>>, i: nat)
    requires i < |ps|
    ensures MapOf(ps[..i + 1]) == if ps[i].Some? then MapOf(ps[..i])[ps[i].value.0 := ps[i].value.1] else MapOf(ps[..i])
  {
    assert ps[..i + 1][..i] == ps[..i];
  }

  /** A key is present exactly when some contribution carries it. */
  lemma {:induction false} MapKeys(ps: seq<Option<(string, Json)>>, k: string)
    ensures k in MapOf(ps) <==> exists i :: 0 <= i < |ps| && ps[i].Some? && ps[i].value.0 == k
    decreases |ps|
  {
    if ps != [] {
      var init := ps[..|ps| - 1];
      MapKeys(init, k);
      if !(ps[|ps| - 1].Some? && ps[|ps| - 1].value.0 == k) {
        if k in MapOf(init) {
          var i :| 0 <= i < |init| && init[i].Some? && init[i].value.0 == k;
          assert init[i] == ps[i];
        }
        if exists i :: 0 <= i < |ps| && ps[i].Some? && ps[i].value.0 == k {
          var i :| 0 <= i < |ps| && ps[i].Some? && ps[i].value.0 == k;
          assert init[i] == ps[i];
        }
      }
    }
  }

  /** The value under a key is the one from the last contribution carrying that key. */
  lemma {:induction false} MapLastWins(ps: seq<Option<(string, Json)>>, i: int)
    requires 0 <= i < |ps| && ps[i].Some?
    requires forall j :: i < j < |ps| ==> ps[j].None? || ps[j].value.0 != ps[i].value.0
    ensures ps[i].value.0 in MapOf(ps) && MapOf(ps)[ps[i].value.0] == ps[i].value.1
    decreases |ps|
  {
    if i < |ps| - 1 {
      var init := ps[..|ps| - 1];
      assert init[i] == ps[i];
      forall j | i < j < |init|
        ensures init[j].None? || init[j].value.0 != init[i].value.0
      {
        assert init[j] == ps[j];
      }
      MapLastWins(init, i);
    }
  }

  /** The data map has a key exactly when some walked file with that stem loaded. */
  lemma DataKeys(es: seq<FileEntry>, decode: JsonDecoder, k: string)
    ensures k in MapOf(Contributions(es, decode)) <==>
      exists i :: 0 <= i < |es| && Contribution(es[i], decode).Some? && Stem(es[i]) == k
  {
    MapKeys(Contributions(es, decode), k);
  }

  /** The value under a stem comes from the last file with that stem that loaded: later files overwrite earlier ones. */
  lemma DataLastWins(es: seq<FileEntry>, decode: JsonDecoder, i: int)
    requires 0 <= i < |es| && Contribution(es[i], decode).Some?
    requires forall j :: i < j < |es| ==> Contribution(es[j], decode).None? || Stem(es[j]) != Stem(es[i])
    ensures Stem(es[i]) in MapOf(Contributions(es, decode))
    ensures Some((Stem(es[i]), MapOf(Contributions(es, decode))[Stem(es[i])])) == Contribution(es[i], decode)
  {
    MapLastWins(Contributions(es, decode), i);
  }

  /** A file that is not JSON or fails to load leaves the map exactly as it was. */
  lemma DataSkipsFailedFile(es: seq<FileEntry>, e: FileEntry, decode: JsonDecoder)
    requires Contribution(e, decode).None?
    ensures MapOf(Contributions(es + [e], decode)) == MapOf(Contributions(es, decode))
  {
    var ps := Contributions(es + [e], decode);
    assert ps[..|es|] == Contributions(es, decode);
  }

  // ----- load_collections -----

  /** One collection item, as the dict `load_collections` builds. */
  datatype Item = Item(
    path: string,
    relativePath: string,
    outputPathRelative: string,
    frontMatter: Json,
    content: string,
    url: string)

  /** A loaded collection: its config key and its items in walk order. */
  datatype Collection = Collection(name: string, items: seq<Item>)

  /** `file_name.endswith('.html')`, case-sensitive. */
  predicate IsHtml(e: FileEntry) {
    EndsWith(e.name, ".html")
  }

  /** `collection_settings.get("output", collection_name)`. */
  function OutputDirName(cs: CollectionSetting): string {
    if cs.output.Some? then cs.output.value else cs.name
  }

  /** The item built for one HTML file of a collection walked from `top`. */
  function MakeItem(cs: CollectionSetting, top: string, e: FileEntry, text: string, cfg: Config, decode: JsonDecoder): Item {
    var fm := ParseFrontMatter(text, decode);
    var rel := e.RelPath();
    var out := PathJoin(OutputDirName(cs), rel);
    Item(e.PathUnder(top), rel, out, fm.meta, fm.body, Url(out, cfg))
  }

  /**
   * What an item records: the parsed front matter and body of its file, an output path
   * that joins the collection's `output` setting (or else its name) with the file's
   * path relative to the collection directory, the URL of
   * that output path, and a source path naming the file itself.
   */
  lemma ItemFields(cs: CollectionSetting, top: string, e: FileEntry, text: string, cfg: Config, decode: JsonDecoder)
    ensures var item := MakeItem(cs, top, e, text, cfg, decode);
      && item.frontMatter == ParseFrontMatter(text, decode).meta
      && item.content == ParseFrontMatter(text, decode).body
      && EndsWith(item.outputPathRelative, item.relativePath)
      && (cs.output.Some? ==> item.outputPathRelative == PathJoin(cs.output.value, e.RelPath()))
      && (cs.output.None? ==> item.outputPathRelative == PathJoin(cs.name, e.RelPath()))
      && item.relativePath == e.RelPath()
      && item.url == Url(item.outputPathRelative, cfg)
      && Basename(item.path) == Basename(e.name)
  {
    BasenameOfJoin(if e.subdir == "" then top else PathJoin(top, e.subdir), e.name);
  }

  /** The text of a readable entry ("" for one that is not; a walk holding such an HTML file aborts). */
  function TextOf(e: FileEntry): string {
    if e.text.Some? then e.text.value else ""
  }

  /** The items built once the walk of `top` has visited `es`. */
  function ItemsOf(cs: CollectionSetting, top: string, es: seq<FileEntry>, cfg: Config, decode: JsonDecoder): seq<Item>
    decreases |es|
  {
    if es == [] then []
    else
      var e := es[|es| - 1];
      ItemsOf(cs, top, es[..|es| - 1], cfg, decode)
        + (if IsHtml(e) then [MakeItem(cs, top, e, TextOf(e), cfg, decode)] else [])
  }

  /** Some HTML file of the walk cannot be read: `open` raises and the exception escapes. */
  predicate ReadFails(es: seq<FileEntry>) {
    exists k :: 0 <= k < |es| && IsHtml(es[k]) && es[k].text.None?
  }

  /** The collection's `path` is set, non-empty and present. */
  predicate Loads(cs: CollectionSetting, disk: Disk) {
    IsSet(cs.path) && disk.Exists(cs.path.value)
  }

  function CollectionsOf(css: seq<CollectionSetting>, cfg: Config, disk: Disk, decode: JsonDecoder): seq<Collection>
    decreases |css|
  {
    if css == [] then []
    else
      var cs := css[|css| - 1];
      CollectionsOf(css[..|css| - 1], cfg, disk, decode)
        + (if Loads(cs, disk)
           then [Collection(cs.name, ItemsOf(cs, cs.path.value, disk.Walk(cs.path.value), cfg, decode))]
           else [])
  }

  predicate AnyReadFails(css: seq<CollectionSetting>, disk: Disk) {
    exists c :: 0 <= c < |css| && Loads(css[c], disk) && ReadFails(disk.Walk(css[c].path.value))
  }

  function LoadedCollections(cfg: Config, disk: Disk, decode: JsonDecoder): Result<seq<Collection>> {
    if AnyReadFails(cfg.collections, disk) then Err(IOError)
    else Ok(CollectionsOf(cfg.collections, cfg, disk, decode))
  }

  /** `load_collections(config)`. */
  method LoadCollections(cfg: Config, disk: Disk, decode: JsonDecoder) returns (r: Result<seq<Collection>>)
    ensures r == LoadedCollections(cfg, disk, decode)
  {
    var css := cfg.collections;
    var collectionsData: seq<Collection> := [];
    var c := 0;
    while c < |css|
      invariant 0 <= c <= |css|
      invariant !AnyReadFails(css[..c], disk)
      invariant collectionsData == CollectionsOf(css[..c], cfg, disk, decode)
    {
      var cs := css[c];
      assert css[..c + 1][..c] == css[..c];
      AnyReadFailsSnoc(css, c, disk);
      if !IsSet(cs.path) || !disk.Exists(cs.path.value) {
        // logged and skipped: no entry for this collection
      } else {
        var items := LoadItems(cs, cs.path.value, disk.Walk(cs.path.value), cfg, decode);
        if items.Err? {
          AnyReadFailsPrefix(css, c + 1, disk);
          return Err(items.fault);
        }
        collectionsData := collectionsData + [Collection(cs.name, items.value)];
      }
      c := c + 1;
    }
    assert css[..c] == css;
    r := Ok(collectionsData);
  }

  /** The walk of one collection directory: an item per HTML file, or the `IOError` of the first unreadable one. */
  method LoadItems(cs: CollectionSetting, top: string, es: seq<FileEntry>, cfg: Config, decode: JsonDecoder)
    returns (r: Result<seq<Item>>)
    ensures r.Err? <==> ReadFails(es)
    ensures r.Err? ==> r.fault == IOError
    ensures r.Ok? ==> r.value == ItemsOf(cs, top, es, cfg, decode)
  {
    var items: seq<Item> := [];
    var i := 0;
    while i < |es|
      invariant 0 <= i <= |es|
      invariant !ReadFails(es[..i])
      invariant items == ItemsOf(cs, top, es[..i], cfg, decode)
    {
      var e := es[i];
      assert es[..i + 1][..i] == es[..i];
      ReadFailsSnoc(es, i);
      if EndsWith(e.name, ".html") {
        if e.text.None? {
          ReadFailsPrefix(es, i + 1);
          return Err(IOError);
        }
        var parsed := ParseFrontMatter(e.text.value, decode);
        var relativePath := e.RelPath();
        var itemOutputPath := PathJoin(OutputDirName(cs), relativePath);
        var item := Item(e.PathUnder(top), relativePath, itemOutputPath, parsed.meta, parsed.body, Url(itemOutputPath, cfg));
        assert item == MakeItem(cs, top, e, TextOf(e), cfg, decode);
        items := items + [item];
      }
      i := i + 1;
    }
    assert es[..i] == es;
    r := Ok(items);
  }

  lemma ReadFailsSnoc(es: seq<FileEntry>, i: nat)
    requires i < |es|
    ensures ReadFails(es[..i + 1]) <==> ReadFails(es[..i]) || (IsHtml(es[i]) && es[i].text.None?)
  {
    var p := es[..i + 1];
    if ReadFails(p) {
      var k :| 0 <= k < |p| && IsHtml(p[k]) && p[k].text.None?;
      if k < i {
        assert es[..i][k] == p[k];
      }
    }
    if ReadFails(es[..i]) {
      var k :| 0 <= k < i && IsHtml(es[..i][k]) && es[..i][k].text.None?;
      assert p[k] == es[..i][k];
    }
    assert p[i] == es[i];
  }

  lemma ReadFailsPrefix(es: seq<FileEntry>, n: nat)
    requires n <= |es| && ReadFails(es[..n])
    ensures ReadFails(es)
  {
    var k :| 0 <= k < n && IsHtml(es[..n][k]) && es[..n][k].text.None?;
    assert es[k] == es[..n][k];
  }

  lemma AnyReadFailsSnoc(css: seq<CollectionSetting>, c: nat, disk: Disk)
    requires c < |css|
    ensures AnyReadFails(css[..c + 1], disk) <==>
      AnyReadFails(css[..c], disk) || (Loads(css[c], disk) && ReadFails(disk.Walk(css[c].path.value)))
  {
    var p := css[..c + 1];
    if AnyReadFails(p, disk) {
      var k :| 0 <= k < |p| && Loads(p[k], disk) && ReadFails(disk.Walk(p[k].path.value));
      if k < c {
        assert css[..c][k] == p[k];
      }
    }
    if AnyReadFails(css[..c], disk) {
      var k :| 0 <= k < c && Loads(css[..c][k], disk) && ReadFails(disk.Walk(css[..c][k].path.value));
      assert p[k] == css[..c][k];
    }
    assert p[c] == css[c];
  }

  lemma AnyReadFailsPrefix(css: seq<CollectionSetting>, n: nat, disk: Disk)
    requires n <= |css| && AnyReadFails(css[..n], disk)
    ensures AnyReadFails(css, disk)
  {
    var k :| 0 <= k < n && Loads(css[..n][k], disk) && ReadFails(disk.Walk(css[..n][k].path.value));
    assert css[k] == css[..n][k];
  }

  /** The HTML entries of a walk, in walk order. */
  function HtmlEntries(es: seq<FileEntry>): seq<FileEntry>
    decreases |es|
  {
    if es == [] then []
    else HtmlEntries(es[..|es| - 1]) + (if IsHtml(es[|es| - 1]) then [es[|es| - 1]] else [])
  }

  /** Items are exactly the HTML files of the walk, one each, in walk order. */
  lemma {:induction false} ItemsAreHtmlFiles(cs: CollectionSetting, top: string, es: seq<FileEntry>, cfg: Config, decode: JsonDecoder)
    ensures |ItemsOf(cs, top, es, cfg, decode)| == |HtmlEntries(es)|
    ensures forall j :: 0 <= j < |HtmlEntries(es)| ==>
      IsHtml(HtmlEntries(es)[j]) &&
      ItemsOf(cs, top, es, cfg, decode)[j] == MakeItem(cs, top, HtmlEntries(es)[j], TextOf(HtmlEntries(es)[j]), cfg, decode)
    decreases |es|
  {
    if es != [] {
      var init := es[..|es| - 1];
      var e := es[|es| - 1];
      ItemsAreHtmlFiles(cs, top, init, cfg, decode);
      var items := ItemsOf(cs, top, init, cfg, decode);
      var html := HtmlEntries(init);
      if IsHtml(e) {
        assert ItemsOf(cs, top, es, cfg, decode) == items + [MakeItem(cs, top, e, TextOf(e), cfg, decode)];
        assert HtmlEntries(es) == html + [e];
      } else {
        assert ItemsOf(cs, top, es, cfg, decode) == items;
        assert HtmlEntries(es) == html;
      }
    }
  }

  /** With distinct collection names, a collection has an entry exactly when its path is set, non-empty and present. */
  lemma {:induction false} CollectionPresence(css: seq<CollectionSetting>, cfg: Config, disk: Disk, decode: JsonDecoder, n: string)
    requires DistinctNames(css)
    ensures (exists j :: 0 <= j < |CollectionsOf(css, cfg, disk, decode)| && CollectionsOf(css, cfg, disk, decode)[j].name == n)
        <==> (exists c :: 0 <= c < |css| && css[c].name == n && Loads(css[c], disk))
    decreases |css|
  {
    if css != [] {
      var init := css[..|css| - 1];
      var last := css[|css| - 1];
      assert DistinctNames(init) by {
        forall i, j | 0 <= i < j < |init| ensures init[i].name != init[j].name {
          assert init[i] == css[i] && init[j] == css[j];
        }
      }
      CollectionPresence(init, cfg, disk, decode, n);
      var cols := CollectionsOf(css, cfg, disk, decode);
      var before := CollectionsOf(init, cfg, disk, decode);
      assert forall j :: 0 <= j < |before| ==> cols[j] == before[j];
      assert forall c :: 0 <= c < |init| ==> init[c] == css[c];
      if Loads(last, disk) {
        assert cols[|before|].name == last.name;
      }
      if exists c :: 0 <= c < |css| && css[c].name == n && Loads(css[c], disk) {
        var c :| 0 <= c < |css| && css[c].name == n && Loads(css[c], disk);
        if c < |init| {
          assert init[c].name == n;
        }
      }
    }
  }
}

=== FILE: dev_server.dfy ===
/**
 * The watch mode of the development server: `MyHandler`, which rebuilds the site when a
 * relevant file changes, at most once per second after the last successful rebuild;
 * and the MIME lookup `guess_type` of its HTTP handler.
 */
module DevServer {
  import opened Wrappers
  import opened PyText
  import opened SiteInputs

  /** One second, in microseconds (the unit of timestamps here). */
  const OneSecond: int := 1_000_000

  /** What `build_command(config_path)` does when the handler calls it. */
  datatype RebuildOutcome = Completed(finishedAt: int) | Failed

  /** What the handler did with an event. */
  datatype Reaction = Throttled | Ignored | Rebuilt | RebuildFailed

  /**
   * The directories whose changes matter: pages, templates, static, assets, data and
   * plugins, then each collection's `path`, in configuration order.
   */
  function Candidates(cfg: Config): seq<Option<string>> {
    [Some(cfg.pagesDir), Some(cfg.templatesDir), Some(cfg.staticDir), Some(cfg.assetsDir), cfg.dataDir, cfg.pluginsDir]
      + CollectionPaths(cfg.collections)
  }

  function CollectionPaths(css: seq<CollectionSetting>): (r: seq<Option<string>>)
    ensures |r| == |css| && forall i :: 0 <= i < |css| ==> r[i] == css[i].path
  {
    seq(|css|, i requires 0 <= i < |css| => css[i].path)
  }

  /** A candidate is kept when it is set, non-empty and exists; it is kept as an absolute path. */
  predicate Kept(d: Option<string>, disk: Disk) {
    IsSet(d) && disk.Exists(d.value)
  }

  /** The filtered, absolute `relevant_dirs` list. */
  function RelevantDirs(ds: seq<Option<string>>, disk: Disk, abspath: string -> string): seq<string>
    decreases |ds|
  {
    if ds == [] then []
    else
      var d := ds[|ds| - 1];
      RelevantDirs(ds[..|ds| - 1], disk, abspath) + (if Kept(d, disk) then [abspath(d.value)] else [])
  }

  /** The relevance test: a relevant directory is a string prefix of the event path, or the event is the config file. */
  predicate Relevant(eventAbs: string, dirs: seq<string>, configAbs: string) {
    (exists i :: 0 <= i < |dirs| && StartsWith(eventAbs, dirs[i])) || eventAbs == configAbs
  }

  /** The reaction to an event at `now` and the `last_rebuild_time` afterwards. */
  function React(last: int, now: int, cfg: Config, configPath: string, disk: Disk, abspath: string -> string,
                 srcPath: string, outcome: RebuildOutcome): (int, Reaction)
  {
    if now - last < OneSecond then (last, Throttled)
    else if !Relevant(abspath(srcPath), RelevantDirs(Candidates(cfg), disk, abspath), abspath(configPath)) then (last, Ignored)
    else
      match outcome
      case Completed(t) => (t, Rebuilt)
      case Failed => (last, RebuildFailed)        // logged; the exception does not escape
  }

  /** `MyHandler`: the configuration is loaded once, when the handler is made. */
  class WatchHandler {
    const configPath: string
    const config: Config
    var lastRebuildTime: int

    /** `__init__`: the clock is read at construction, so the first second is throttled. */
    constructor(configPath: string, config: Config, now: int)
      ensures this.configPath == configPath && this.config == config && lastRebuildTime == now
    {
      this.configPath := configPath;
      this.config := config;
      lastRebuildTime := now;
    }

    /**
     * `on_any_event(event)` for an event on `srcPath` seen at `now`; `abspath` is
     * `os.path.abspath` and `outcome` what the rebuild does, if one is started.
     */
    method OnAnyEvent(srcPath: string, now: int, disk: Disk, abspath: string -> string, outcome: RebuildOutcome)
      returns (reaction: Reaction)
      modifies this
      ensures (lastRebuildTime, reaction) == React(old(lastRebuildTime), now, config, configPath, disk, abspath, srcPath, outcome)
    {
      if now - lastRebuildTime < OneSecond {
        return Throttled;
      }
      var candidates := Candidates(config);
      var relevantDirs: seq<string> := [];
      var i := 0;
      while i < |candidates|
        invariant 0 <= i <= |candidates|
        invariant relevantDirs == RelevantDirs(candidates[..i], disk, abspath)
      {
        var d := candidates[i];
        if d.Some? && d.value != "" && disk.Exists(d.value) {
          relevantDirs := relevantDirs + [abspath(d.value)];
        }
        assert candidates[..i + 1][..i] == candidates[..i];
        i := i + 1;
      }
      assert candidates[..i] == candidates;
      var eventAbs := abspath(srcPath);
      var matched := false;
      var j := 0;
      while j < |relevantDirs| && !matched
        invariant 0 <= j <= |relevantDirs|
        invariant matched <==> exists k :: 0 <= k < j && StartsWith(eventAbs, relevantDirs[k])
      {
        matched := StartsWith(eventAbs, relevantDirs[j]);
        j := j + 1;
      }
      assert matched <==> exists k :: 0 <= k < |relevantDirs| && StartsWith(eventAbs, relevantDirs[k]);
      if !matched && eventAbs != abspath(configPath) {
        return Ignored;
      }
      match outcome {
        case Completed(t) =>
          lastRebuildTime := t;
          reaction := Rebuilt;
        case Failed =>
          reaction := RebuildFailed;
      }
    }
  }

  /**
   * The relevant directories are exactly the set, non-empty, existing candidates, made
   * absolute, in candidate order.
   */
  lemma {:induction false} RelevantDirsMembers(ds: seq<Option<string>>, disk: Disk, abspath: string -> string, p: string)
    ensures p in RelevantDirs(ds, disk, abspath) <==> exists i :: 0 <= i < |ds| && Kept(ds[i], disk) && p == abspath(ds[i].value)
    decreases |ds|
  {
    if ds != [] {
      var init := ds[..|ds| - 1];
      RelevantDirsMembers(init, disk, abspath, p);
      assert forall i :: 0 <= i < |init| ==> init[i] == ds[i];
    }
  }

  /**
   * An event is relevant exactly when some set, non-empty, existing candidate directory,
   * made absolute, is a string prefix of the event's absolute path, or the event is on
   * the configuration file.
   */
  lemma RelevantIffCandidate(eventAbs: string, ds: seq<Option<string>>, disk: Disk, abspath: string -> string, configAbs: string)
    ensures Relevant(eventAbs, RelevantDirs(ds, disk, abspath), configAbs) <==>
      (exists i :: 0 <= i < |ds| && Kept(ds[i], disk) && StartsWith(eventAbs, abspath(ds[i].value))) || eventAbs == configAbs
  {
    var dirs := RelevantDirs(ds, disk, abspath);
    if exists k :: 0 <= k < |dirs| && StartsWith(eventAbs, dirs[k]) {
      var k :| 0 <= k < |dirs| && StartsWith(eventAbs, dirs[k]);
      RelevantDirsMembers(ds, disk, abspath, dirs[k]);
    }
    if exists i :: 0 <= i < |ds| && Kept(ds[i], disk) && StartsWith(eventAbs, abspath(ds[i].value)) {
      var i :| 0 <= i < |ds| && Kept(ds[i], disk) && StartsWith(eventAbs, abspath(ds[i].value));
      RelevantDirsMembers(ds, disk, abspath, abspath(ds[i].value));
      var k :| 0 <= k < |dirs| && dirs[k] == abspath(ds[i].value);
    }
  }

  /**
   * Throttle, not debounce: an event less than a second after the last successful rebuild
   * (or the handler's creation) is dropped whatever it is about, and leaves the clock
   * alone; from one second on the event is judged.
   */
  lemma ThrottleWindow(last: int, now: int, cfg: Config, configPath: string, disk: Disk, abspath: string -> string,
                       srcPath: string, outcome: RebuildOutcome)
    ensures var (last', reaction) := React(last, now, cfg, configPath, disk, abspath, srcPath, outcome);
      && (now - last < OneSecond <==> reaction == Throttled)
      && (reaction == Throttled ==> last' == last)
  {
  }

  /**
   * Only a completed rebuild moves `last_rebuild_time`, to the time it completed; an
   * event that is dropped, irrelevant or whose rebuild fails leaves it as it was.
   */
  lemma RebuildClock(last: int, now: int, cfg: Config, configPath: string, disk: Disk, abspath: string -> string,
                     srcPath: string, outcome: RebuildOutcome)
    ensures var (last', reaction) := React(last, now, cfg, configPath, disk, abspath, srcPath, outcome);
      && (reaction == Rebuilt <==>
            (now - last >= OneSecond && outcome.Completed?
             && Relevant(abspath(srcPath), RelevantDirs(Candidates(cfg), disk, abspath), abspath(configPath))))
      && (reaction == Rebuilt ==> last' == outcome.finishedAt)
      && (reaction != Rebuilt ==> last' == last)
  {
  }

  /**
   * Relevance is a plain string-prefix test: with `pages` as pages directory, a change
   * in the sibling directory `pages-old` triggers a rebuild too.
   */
  lemma PrefixFalsePositive(cfg: Config, configPath: string, disk: Disk, abspath: string -> string, last: int, now: int, t: int)
    requires cfg.pagesDir == "/site/pages" && disk.Exists("/site/pages") && abspath("/site/pages") == "/site/pages"
    requires abspath("/site/pages-old/a.html") == "/site/pages-old/a.html"
    requires now - last >= OneSecond
    ensures React(last, now, cfg, configPath, disk, abspath, "/site/pages-old/a.html", Completed(t)) == (t, Rebuilt)
  {
    var ds := Candidates(cfg);
    assert ds[0] == Some("/site/pages") && Kept(ds[0], disk);
    RelevantDirsMembers(ds, disk, abspath, "/site/pages");
    var dirs := RelevantDirs(ds, disk, abspath);
    var k :| 0 <= k < |dirs| && dirs[k] == "/site/pages";
    assert "/site/pages-old/a.html"[..|"/site/pages"|] == "/site/pages";
    assert StartsWith("/site/pages-old/a.html", dirs[k]);
  }

  // ----- MIME types -----

  /** The handler's own `extensions_map`, which replaces the standard one. */
  const ExtensionsMap: map<string, string> := map[
    ".html" := "text/html",
    ".css" := "text/css",
    ".js" := "application/javascript",
    ".png" := "image/png",
    ".jpg" := "image/jpeg",
    ".jpeg" := "image/jpeg",
    ".gif" := "image/gif",
    ".svg" := "image/svg+xml",
    ".json" := "application/json",
    ".xml" := "application/xml",
    ".txt" := "text/plain",
    ".ico" := "image/x-icon",
    ".pdf" := "application/pdf",
    ".woff" := "font/woff",
    ".woff2" := "font/woff2",
    ".ttf" := "font/ttf",
    ".eot" := "application/vnd.ms-fontobject",
    ".otf" := "font/otf"]

  const OctetStream: string := "application/octet-stream"

  /** `guess_type(path)`: the exact extension first, then the lower-cased one, then the default. */
  function GuessType(path: string): string {
    var ext := SplitExt(path).1;
    if ext in ExtensionsMap then ExtensionsMap[ext]
    else
      var lower := AsciiLower(ext);
      if lower in ExtensionsMap then ExtensionsMap[lower] else OctetStream
  }

  /** Every key of the map is already lower-case. */
  lemma KeysAreLowerCase(k: string)
    requires k in ExtensionsMap
    ensures AsciiLower(k) == k
  {
  }

  /**
   * The exact lookup is subsumed by the lower-cased one, since every key is lower-case:
   * the type depends only on the lower-cased extension, and is the default exactly when
   * that is not a key.
   */
  lemma GuessTypeIgnoresCase(path: string)
    ensures var lower := AsciiLower(SplitExt(path).1);
      && GuessType(path) == (if lower in ExtensionsMap then ExtensionsMap[lower] else OctetStream)
      && (GuessType(path) == OctetStream <==> lower !in ExtensionsMap)
  {
    var ext := SplitExt(path).1;
    if ext in ExtensionsMap {
      KeysAreLowerCase(ext);
    }
    if AsciiLower(ext) in ExtensionsMap {
      assert ExtensionsMap[AsciiLower(ext)] != OctetStream;
    }
  }
}

=== FILE: front_matter_parser.dfy ===
/**
 * `parse_front_matter`: splits a content file into JSON front matter, enclosed by
 * `+++` delimiters, and the body that follows.
 */
module FrontMatterParser {
  import opened Wrappers
  import opened PyText
  import opened JsonValues

  const Delimiter: string := "+++"

  datatype FrontMatter = FrontMatter(meta: Json, body: string)

  /**
   * How `content.split('+++', 2)` cuts a text that starts with the delimiter: an empty
   * first part, then the text up to the next delimiter and everything after it, or
   * the whole remainder when no second delimiter exists.
   */
  lemma {:induction false} SplitAfterOpening(content: string)
    requires StartsWith(content, Delimiter)
    ensures Split(content, Delimiter, 2) ==
      match Find(content[3..], Delimiter)
      case None => ["", content[3..]]
      case Some(i) => ["", content[3..3 + i], content[6 + i..]]
  {
    assert OccursAt(content, Delimiter, 0);
    assert Find(content, Delimiter) == Some(0);
    var t := content[3..];
    SplitCut(content, Delimiter, 2, 0);
    assert content[..0] == "";
    match Find(t, Delimiter)
    case None =>
      SplitWhole(t, Delimiter, 1);
    case Some(i) =>
      SplitCut(t, Delimiter, 1, i);
      SplitWhole(t[i + 3..], Delimiter, 0);
      assert t[..i] == content[3..3 + i];
      assert t[i + 3..] == content[6 + i..];
  }

  /** `parse_front_matter(content)`, with the JSON decoder `json.loads` as a parameter. */
  function ParseFrontMatter(content: string, decode: JsonDecoder): FrontMatter {
    if StartsWith(content, Delimiter) then
      var parts := Split(content, Delimiter, 2);
      if |parts| > 2 then
        match decode(parts[1])
        case Some(j) => FrontMatter(if Truthy(j) then j else EmptyObject, Strip(parts[2], Whitespace))
        case None => FrontMatter(EmptyObject, content)
      else FrontMatter(EmptyObject, content)
    else FrontMatter(EmptyObject, content)
  }

  /**
   * The parse, stated against where the delimiters are: no leading `+++`, no second
   * `+++`, or an undecodable middle all give empty metadata and the text unchanged;
   * otherwise the metadata is the decoded middle (an empty object when falsy) and the
   * body is the remainder with surrounding whitespace stripped.
   */
  lemma ParseFrontMatterCases(content: string, decode: JsonDecoder)
    ensures var r := ParseFrontMatter(content, decode);
      && (!StartsWith(content, Delimiter) ==> r == FrontMatter(EmptyObject, content))
      && (StartsWith(content, Delimiter) ==>
            match Find(content[3..], Delimiter)
            case None => r == FrontMatter(EmptyObject, content)
            case Some(i) =>
              match decode(content[3..3 + i])
              case None => r == FrontMatter(EmptyObject, content)
              case Some(j) => r == FrontMatter(if Truthy(j) then j else EmptyObject, Strip(content[6 + i..], Whitespace)))
  {
    if StartsWith(content, Delimiter) {
      SplitAfterOpening(content);
    }
  }

  /** The text handed to the decoder when both delimiters are found. */
  predicate HasMetaText(content: string, i: nat) {
    StartsWith(content, Delimiter) && Find(content[3..], Delimiter) == Some(i)
  }

  /** The text handed to the decoder holds no delimiter: it stops at the first closing one. */
  lemma {:induction false} MetaTextHasNoDelimiter(content: string, i: nat)
    requires HasMetaText(content, i)
    ensures Find(content[3..3 + i], Delimiter) == None
  {
    var t := content[3..];
    var mid := content[3..3 + i];
    assert mid == t[..i];
    if Find(mid, Delimiter).Some? {
      var j := Find(mid, Delimiter).value;
      assert mid[j..j + 3] == t[j..j + 3];
      assert OccursAt(t, Delimiter, j);
      assert false;
    }
  }

  /**
   * When the closing delimiter is found and the metadata decodes, the body is what
   * follows the closing delimiter with surrounding whitespace stripped (so it neither
   * starts nor ends with whitespace).
   */
  lemma ParsedBody(content: string, decode: JsonDecoder, i: nat)
    requires HasMetaText(content, i) && decode(content[3..3 + i]).Some?
    ensures ParseFrontMatter(content, decode).body == Strip(content[6 + i..], Whitespace)
  {
    SplitAfterOpening(content);
    var parts := Split(content, Delimiter, 2);
    assert parts == ["", content[3..3 + i], content[6 + i..]];
    assert decode(parts[1]).Some?;
  }

  /**
   * Every `+++` after the closing delimiter is still inside the stripped body: the
   * split stops at two.
   */
  lemma {:induction false} StrippedTailKeepsDelimiter(content: string, from: nat, k: int)
    requires OccursAt(content, Delimiter, k) && from <= k
    ensures Find(Strip(content[from..], Whitespace), Delimiter).Some?
  {
    var rest := content[from..];
    assert rest[k - from..k - from + 3] == content[k..k + 3];
    assert '+' !in Whitespace;
    StripKeepsOccurrence(rest, Whitespace, Delimiter, k - from);
  }

  /**
   * Front matter written as `+++` + meta + `+++` + body reads back as the decoded meta
   * and the stripped body, provided the first delimiter in meta + `+++` is the one
   * closing it (no `+++` inside meta, nor one formed by its trailing `+` signs).
   */
  lemma {:induction false} WrappedRoundTrip(meta: string, body: string, decode: JsonDecoder)
    requires Find(meta + Delimiter, Delimiter) == Some(|meta|)
    ensures var r := ParseFrontMatter(Delimiter + meta + Delimiter + body, decode);
      match decode(meta)
      case None => r == FrontMatter(EmptyObject, Delimiter + meta + Delimiter + body)
      case Some(j) => r == FrontMatter(if Truthy(j) then j else EmptyObject, Strip(body, Whitespace))
  {
    var content := Delimiter + meta + Delimiter + body;
    assert StartsWith(content, Delimiter);
    assert content[3..] == (meta + Delimiter) + body;
    FindExtend(meta + Delimiter, body, Delimiter);
    ParseFrontMatterCases(content, decode);
    var i := |meta|;
    assert content[3..3 + i] == meta;
    assert content[6 + i..] == body;
  }

  /** Metadata is never falsy: a falsy decode result becomes the empty object. */
  lemma MetaIsTruthyOrEmpty(content: string, decode: JsonDecoder)
    ensures var m := ParseFrontMatter(content, decode).meta;
      Truthy(m) || m == EmptyObject
  {
  }
}

=== FILE: json_values.dfy ===
/**
 * A decoded JSON value as Python holds it after `json.load`/`json.loads`, with the
 * Python operations the generator applies to front matter: truthiness, `key in v`,
 * `v[key]` and `v.get(key)`.
 */
module JsonValues {
  import opened Wrappers
  import opened PyText

  datatype Json =
    | JNull
    | JBool(b: bool)
    | JNum(n: real)
    | JStr(s: string)
    | JArr(elems: seq<Json>)
    | JObj(fields: map<string, Json>)

  /** The JSON decoder the generator calls: None where Python raises `JSONDecodeError`. */
  type JsonDecoder = string -> Option<Json>

  const EmptyObject: Json := JObj(map[])

  /** Python's `bool(v)`: null, false, zero and empty containers are falsy. */
  predicate Truthy(v: Json) {
    match v
    case JNull => false
    case JBool(b) => b
    case JNum(n) => n != 0.0
    case JStr(s) => s != []
    case JArr(elems) => elems != []
    case JObj(fields) => fields != map[]
  }

  /** Python's `key in v` for a string `key`: key test on a dict, element test on a list, substring test on a string. */
  function HasKey(v: Json, key: string): (r: Result<bool>)
    ensures v.JObj? ==> r == Ok(key in v.fields)
    ensures (v.JNull? || v.JBool? || v.JNum?) ==> r == Err(TypeError)
  {
    match v
    case JObj(fields) => Ok(key in fields)
    case JArr(elems) => Ok(JStr(key) in elems)
    case JStr(s) => Ok(key == [] || Find(s, key).Some?)
    case _ => Err(TypeError)
  }

  /** Python's `v[key]` for a string `key`. */
  function Index(v: Json, key: string): (r: Result<Json>)
    ensures r.Ok? <==> v.JObj? && key in v.fields
  {
    match v
    case JObj(fields) => if key in fields then Ok(fields[key]) else Err(KeyError(key))
    case _ => Err(TypeError)
  }

  /** Python's `v.get(key)`: only a dict has `get`. */
  function Get(v: Json, key: string): (r: Result<Option<Json>>)
    ensures r.Ok? <==> v.JObj?
    ensures r.Ok? ==> (r.value.Some? <==> key in v.fields)
  {
    match v
    case JObj(fields) => Ok(if key in fields then Some(fields[key]) else None)
    case _ => Err(AttributeError)
  }
}

=== FILE: plugin_system.dfy ===
/**
 * The plugin registry (`PLUGINS`), `load_plugins`, which refills it from the plugins
 * directory, and `run_hook`, which calls one hook on every registered plugin that
 * defines it, swallowing the exceptions hooks raise.
 */
module PluginSystem {
  import opened Wrappers
  import opened PyText
  import opened SiteInputs

  /** What calling a hook does: return normally or raise (the exception is logged). */
  datatype HookOutcome = Returns | Raises

  /** An imported plugin module: its name and its callable attributes, with what calling each does. */
  datatype Plugin = Plugin(name: string, hooks: map<string, HookOutcome>)

  /**
   * One entry of `os.listdir(plugins_dir)`: the file name and what `__import__` of its
   * module gives (the callable attributes, or None when the import raises).
   */
  datatype ListedFile = ListedFile(fileName: string, imported: Option<map<string, HookOutcome>>)

  /** One hook call made by `run_hook`: the plugin called and whether the call raised. */
  datatype Invocation = Invocation(plugin: string, raised: bool)

  /** A `.py` file not starting with `__` is a plugin candidate. */
  predicate IsPluginFile(fileName: string) {
    EndsWith(fileName, ".py") && !StartsWith(fileName, "__")
  }

  /** `file_name[:-3]`: the module name of a plugin file. */
  function ModuleName(fileName: string): (m: string)
    requires EndsWith(fileName, ".py")
    ensures m + ".py" == fileName
  {
    fileName[..|fileName| - 3]
  }

  /** The plugins registered from a listing, in listing order: candidates whose import succeeded. */
  function Discovered(listing: seq<ListedFile>): seq<Plugin>
    decreases |listing|
  {
    if listing == [] then []
    else
      var f := listing[|listing| - 1];
      Discovered(listing[..|listing| - 1])
        + (if IsPluginFile(f.fileName) && f.imported.Some? then [Plugin(ModuleName(f.fileName), f.imported.value)] else [])
  }

  /** The calls `run_hook(hook)` makes over a registry, in registration order. */
  function Dispatch(ps: seq<Plugin>, hook: string): seq<Invocation>
    decreases |ps|
  {
    if ps == [] then []
    else
      var p := ps[|ps| - 1];
      Dispatch(ps[..|ps| - 1], hook) + (if hook in p.hooks then [Invocation(p.name, p.hooks[hook] == Raises)] else [])
  }

  /** The global `PLUGINS` list and the two functions that use it. */
  class Registry {
    var plugins: seq<Plugin>

    constructor()
      ensures plugins == []
    {
      plugins := [];
    }

    /**
     * `load_plugins(config)`: the registry is emptied first, then, when the plugins
     * directory is set and exists, refilled from its listing; the registry is returned.
     */
    method LoadPlugins(pluginsDir: Option<string>, disk: Disk, listing: seq<ListedFile>) returns (loaded: seq<Plugin>)
      modifies this
      ensures plugins == (if IsSet(pluginsDir) && disk.Exists(pluginsDir.value) then Discovered(listing) else [])
      ensures loaded == plugins
    {
      plugins := [];
      if !IsSet(pluginsDir) || !disk.Exists(pluginsDir.value) {
        return [];
      }
      var i := 0;
      while i < |listing|
        invariant 0 <= i <= |listing|
        invariant plugins == Discovered(listing[..i])
      {
        var fileName := listing[i].fileName;
        if EndsWith(fileName, ".py") && !StartsWith(fileName, "__") {
          var moduleName := fileName[..|fileName| - 3];
          match listing[i].imported {
            case Some(attrs) => plugins := plugins + [Plugin(moduleName, attrs)];
            case None =>            // import error logged, file skipped
          }
        }
        assert listing[..i + 1][..i] == listing[..i];
        i := i + 1;
      }
      assert listing[..i] == listing;
      loaded := plugins;
    }

    /**
     * `run_hook(hook)`: the calls made, one per plugin defining the hook, in registration
     * order. A raising hook is logged and the loop goes on; the registry is only read.
     */
    method RunHook(hook: string) returns (calls: seq<Invocation>)
      ensures calls == Dispatch(plugins, hook)
    {
      calls := [];
      var i := 0;
      while i < |plugins|
        invariant 0 <= i <= |plugins|
        invariant calls == Dispatch(plugins[..i], hook)
      {
        var plugin := plugins[i];
        if hook in plugin.hooks {
          var raised := plugin.hooks[hook] == Raises;   // an exception is caught and logged
          calls := calls + [Invocation(plugin.name, raised)];
        }
        assert plugins[..i + 1][..i] == plugins[..i];
        i := i + 1;
      }
      assert plugins[..i] == plugins;
    }
  }

  /** Registration follows the listing: the plugins of a longer listing extend those of its prefix. */
  lemma {:induction false} DiscoveredAppend(a: seq<ListedFile>, b: seq<ListedFile>)
    ensures Discovered(a + b) == Discovered(a) + Discovered(b)
    decreases |b|
  {
    if b == [] {
      assert a + b == a;
    } else {
      var b' := b[..|b| - 1];
      assert (a + b)[..|a + b| - 1] == a + b';
      DiscoveredAppend(a, b');
    }
  }

  /** Exactly the candidates whose import succeeded are registered, each under its module name. */
  lemma {:induction false} DiscoveredMembers(listing: seq<ListedFile>, p: Plugin)
    ensures p in Discovered(listing) <==>
      exists i :: 0 <= i < |listing| && IsPluginFile(listing[i].fileName) && listing[i].imported.Some?
        && p == Plugin(ModuleName(listing[i].fileName), listing[i].imported.value)
    decreases |listing|
  {
    if listing != [] {
      var init := listing[..|listing| - 1];
      DiscoveredMembers(init, p);
      assert forall i :: 0 <= i < |init| ==> init[i] == listing[i];
    }
  }

  /** The plugins of a registry that define `hook`, in registration order. */
  function Defining(ps: seq<Plugin>, hook: string): seq<Plugin>
    decreases |ps|
  {
    if ps == [] then []
    else Defining(ps[..|ps| - 1], hook) + (if hook in ps[|ps| - 1].hooks then [ps[|ps| - 1]] else [])
  }

  /** `run_hook` calls each plugin defining the hook exactly once, in registration order, and no other. */
  lemma {:induction false} DispatchCallsDefining(ps: seq<Plugin>, hook: string)
    ensures |Dispatch(ps, hook)| == |Defining(ps, hook)|
    ensures forall j :: 0 <= j < |Defining(ps, hook)| ==>
      hook in Defining(ps, hook)[j].hooks &&
      Dispatch(ps, hook)[j] == Invocation(Defining(ps, hook)[j].name, Defining(ps, hook)[j].hooks[hook] == Raises)
    decreases |ps|
  {
    if ps != [] {
      DispatchCallsDefining(ps[..|ps| - 1], hook);
    }
  }

  /** Dispatch over a registry is dispatch over its parts, one after the other. */
  lemma {:induction false} DispatchAppend(a: seq<Plugin>, b: seq<Plugin>, hook: string)
    ensures Dispatch(a + b, hook) == Dispatch(a, hook) + Dispatch(b, hook)
    decreases |b|
  {
    if b == [] {
      assert a + b == a;
    } else {
      var b' := b[..|b| - 1];
      assert (a + b)[..|a + b| - 1] == a + b';
      DispatchAppend(a, b', hook);
    }
  }

  /** A plugin whose hook raises does not stop the plugins after it from being called. */
  lemma RaisingHookDoesNotStopDispatch(a: seq<Plugin>, p: Plugin, b: seq<Plugin>, hook: string)
    requires hook in p.hooks && p.hooks[hook] == Raises
    ensures Dispatch(a + [p] + b, hook) == Dispatch(a, hook) + [Invocation(p.name, true)] + Dispatch(b, hook)
  {
    DispatchAppend(a + [p], b, hook);
    DispatchAppend(a, [p], hook);
    assert [p][..0] == [];
  }
}

=== FILE: py_text.dfy ===
/**
 * The Python string and `posixpath` built-ins the site generator relies on:
 * `str.find`, `str.split(sep, maxsplit)`, `str.strip`/`lstrip`, `str.lower`,
 * `str.startswith`/`endswith`, `os.path.join`, `basename` and `splitext`.
 */
module PyText {
  import opened Wrappers

  predicate StartsWith(s: string, prefix: string) {
    |prefix| <= |s| && s[..|prefix|] == prefix
  }

  predicate EndsWith(s: string, suffix: string) {
    |suffix| <= |s| && s[|s| - |suffix|..] == suffix
  }

  /** `pat` occurs in `s` starting at index `i`. */
  predicate OccursAt(s: string, pat: string, i: int) {
    0 <= i && i + |pat| <= |s| && s[i..i + |pat|] == pat
  }

  /** `s.find(pat)`: the first index where `pat` occurs, None where Python answers -1. */
  function Find(s: string, pat: string): (r: Option<nat>)
    requires pat != []
    ensures r.Some? ==> OccursAt(s, pat, r.value)
    ensures r.Some? ==> forall j :: 0 <= j < r.value ==> !OccursAt(s, pat, j)
    ensures r.None? ==> forall j :: !OccursAt(s, pat, j)
  {
    FindFrom(s, pat, 0)
  }

  /** The scan behind `find`, from index `k` on, once no earlier occurrence exists. */
  function FindFrom(s: string, pat: string, k: nat): (r: Option<nat>)
    requires pat != [] && forall j :: 0 <= j < k ==> !OccursAt(s, pat, j)
    ensures r.Some? ==> k <= r.value && OccursAt(s, pat, r.value)
    ensures r.Some? ==> forall j :: 0 <= j < r.value ==> !OccursAt(s, pat, j)
    ensures r.None? ==> forall j :: !OccursAt(s, pat, j)
    decreases |s| - k
  {
    if k + |pat| > |s| then None
    else if s[k..k + |pat|] == pat then Some(k)
    else FindFrom(s, pat, k + 1)
  }

  /** The first occurrence determines `find`. */
  lemma FindIsFirst(s: string, pat: string, i: nat)
    requires pat != [] && OccursAt(s, pat, i)
    requires forall j :: 0 <= j < i ==> !OccursAt(s, pat, j)
    ensures Find(s, pat) == Some(i)
  {
    var r := Find(s, pat);
    assert r.Some?;
    assert !(r.value < i);
    assert !(i < r.value);
  }

  /** A first occurrence stays the first occurrence when text is appended. */
  lemma {:induction false} FindExtend(s: string, t: string, pat: string)
    requires pat != [] && Find(s, pat).Some?
    ensures Find(s + t, pat) == Find(s, pat)
  {
    var i := Find(s, pat).value;
    assert (s + t)[i..i + |pat|] == s[i..i + |pat|];
    forall j | 0 <= j < i
      ensures !OccursAt(s + t, pat, j)
    {
      assert !OccursAt(s, pat, j);
      assert (s + t)[j..j + |pat|] == s[j..j + |pat|];
    }
    FindIsFirst(s + t, pat, i);
  }

  /** `sep.join(parts)`. */
  function JoinWith(parts: seq<string>, sep: string): string
    decreases |parts|
  {
    if |parts| == 0 then ""
    else if |parts| == 1 then parts[0]
    else parts[0] + sep + JoinWith(parts[1..], sep)
  }

  /**
   * `s.split(sep, maxsplit)`: at most `maxsplit` cuts, each at the first occurrence in the
   * text that remains. Joining the parts with `sep` gives `s` back, no part but the last
   * holds `sep`, and the last holds it only when all `maxsplit` cuts were made.
   */
  function Split(s: string, sep: string, maxsplit: nat): (parts: seq<string>)
    requires sep != []
    ensures 1 <= |parts| <= maxsplit + 1
    ensures JoinWith(parts, sep) == s
    ensures PartsLack(parts, sep, maxsplit)
    ensures |parts| > 1 ==> Find(s, sep) == Some(|parts[0]|)
    ensures CutsAtFirst(parts, sep)
    decreases maxsplit
  {
    if maxsplit == 0 then [s]
    else
      match Find(s, sep)
      case None => [s]
      case Some(i) =>
        var rest := Split(s[i + |sep|..], sep, maxsplit - 1);
        JoinAround(s, sep, i, [s[..i]] + rest, rest);
        NothingBeforeFirst(s, sep, i);
        PartsAfter(s[..i], rest, [s[..i]] + rest, sep, maxsplit);
        CutsAfter(s, s[..i], rest, [s[..i]] + rest, sep);
        [s[..i]] + rest
  }

  /** `pat not in s`. */
  ghost predicate Lacks(s: string, pat: string) {
    forall j :: !OccursAt(s, pat, j)
  }

  /** Every part but the last lacks `sep`, and so does the last one when fewer than `maxsplit + 1` parts came out. */
  ghost predicate PartsLack(parts: seq<string>, sep: string, maxsplit: nat) {
    && (forall k :: 0 <= k < |parts| - 1 ==> Lacks(parts[k], sep))
    && (0 < |parts| <= maxsplit ==> Lacks(parts[|parts| - 1], sep))
  }

  /** One cut of a split: the text before the first occurrence, then the split of the rest. */
  lemma SplitCut(s: string, sep: string, maxsplit: nat, i: nat)
    requires sep != [] && maxsplit > 0 && Find(s, sep) == Some(i)
    ensures Split(s, sep, maxsplit) == [s[..i]] + Split(s[i + |sep|..], sep, maxsplit - 1)
  { }

  /** A split with no cut left, or no occurrence, keeps the text whole. */
  lemma SplitWhole(s: string, sep: string, maxsplit: nat)
    requires sep != [] && (maxsplit == 0 || Find(s, sep).None?)
    ensures Split(s, sep, maxsplit) == [s]
  { }

  /** Each cut is at the first occurrence of `sep` in the text that remains from its part on. */
  ghost predicate CutsAtFirst(parts: seq<string>, sep: string)
    requires sep != []
  {
    forall k :: 0 <= k < |parts| - 1 ==> Find(JoinWith(parts[k..], sep), sep) == Some(|parts[k]|)
  }

  /** A first cut at the first occurrence in front of a split of the rest keeps `CutsAtFirst`. */
  lemma CutsAfter(s: string, head: string, rest: seq<string>, parts: seq<string>, sep: string)
    requires sep != [] && rest != [] && parts == [head] + rest
    requires JoinWith(parts, sep) == s && Find(s, sep) == Some(|head|)
    requires CutsAtFirst(rest, sep)
    ensures CutsAtFirst(parts, sep)
  {
    assert parts[0..] == parts;
    forall k | 1 <= k < |parts| - 1
      ensures Find(JoinWith(parts[k..], sep), sep) == Some(|parts[k]|)
    {
      assert parts[k..] == rest[k - 1..];
    }
  }

  /** Putting a part without the separator in front of a split of the rest keeps `PartsLack`. */
  lemma PartsAfter(head: string, rest: seq<string>, parts: seq<string>, sep: string, maxsplit: nat)
    requires maxsplit > 0 && rest != [] && Lacks(head, sep) && parts == [head] + rest
    requires PartsLack(rest, sep, maxsplit - 1)
    ensures PartsLack(parts, sep, maxsplit)
  {
    assert forall k :: 1 <= k < |parts| ==> parts[k] == rest[k - 1];
  }

  /** The text before the first occurrence of a pattern holds no occurrence of it. */
  lemma NothingBeforeFirst(s: string, pat: string, i: nat)
    requires pat != [] && Find(s, pat) == Some(i)
    ensures Lacks(s[..i], pat)
  {
    var t := s[..i];
    forall j | OccursAt(t, pat, j)
      ensures false
    {
      assert t[j..j + |pat|] == s[j..j + |pat|];
      assert OccursAt(s, pat, j);
    }
  }

  lemma JoinAround(s: string, sep: string, i: int, parts: seq<string>, rest: seq<string>)
    requires OccursAt(s, sep, i)
    requires rest != []
    requires JoinWith(rest, sep) == s[i + |sep|..]
    requires parts == [s[..i]] + rest
    ensures JoinWith(parts, sep) == s
  {
    JoinCons(s[..i], rest, sep);
    CutAround(s, sep, i);
  }

  lemma CutAround(s: string, sep: string, i: int)
    requires OccursAt(s, sep, i)
    ensures s == s[..i] + sep + s[i + |sep|..]
  {
    assert s == s[..i] + s[i..i + |sep|] + s[i + |sep|..];
  }

  lemma JoinCons(head: string, rest: seq<string>, sep: string)
    requires rest != []
    ensures JoinWith([head] + rest, sep) == head + sep + JoinWith(rest, sep)
  {
    assert ([head] + rest)[1..] == rest;
  }

  /** `s.lstrip(chars)`: drops the longest prefix made of characters in `chars`. */
  function LStrip(s: string, chars: set<char>): (r: string)
    ensures |r| <= |s| && r == s[|s| - |r|..]
    ensures forall k :: 0 <= k < |s| - |r| ==> s[k] in chars
    ensures r == [] || r[0] !in chars
    decreases |s|
  {
    if s != [] && s[0] in chars then LStrip(s[1..], chars) else s
  }

  /** `s.rstrip(chars)`: drops the longest suffix made of characters in `chars`. */
  function RStrip(s: string, chars: set<char>): (r: string)
    ensures |r| <= |s| && r == s[..|r|]
    ensures forall k :: |r| <= k < |s| ==> s[k] in chars
    ensures r == [] || r[|r| - 1] !in chars
    decreases |s|
  {
    if s != [] && s[|s| - 1] in chars then RStrip(s[..|s| - 1], chars) else s
  }

  /**
   * `s.strip(chars)`: the stretch of `s` left once every leading and trailing character
   * in `chars` is gone; it neither starts nor ends with one of them.
   */
  function Strip(s: string, chars: set<char>): (r: string)
    ensures exists a :: StrippedAt(s, chars, a, r)
    ensures r == [] || (r[0] !in chars && r[|r| - 1] !in chars)
  {
    var l := LStrip(s, chars);
    var r := RStrip(l, chars);
    assert r != [] ==> r[0] == l[0];
    StripWitness(s, chars, l, r);
    r
  }

  lemma StripWitness(s: string, chars: set<char>, l: string, r: string)
    requires |l| <= |s| && l == s[|s| - |l|..] && forall k :: 0 <= k < |s| - |l| ==> s[k] in chars
    requires |r| <= |l| && r == l[..|r|] && forall k :: |r| <= k < |l| ==> l[k] in chars
    ensures StrippedAt(s, chars, |s| - |l|, r)
  {
    var a := |s| - |l|;
    assert r == s[a..a + |r|];
    forall k | a + |r| <= k < |s|
      ensures s[k] in chars
    {
      assert s[k] == l[k - a];
    }
  }

  /** `r` is `s` from index `a` on, and everything of `s` before `r` and after it is in `chars`. */
  predicate StrippedAt(s: string, chars: set<char>, a: int, r: string) {
    && 0 <= a <= |s| - |r| && r == s[a..a + |r|]
    && (forall k :: 0 <= k < a ==> s[k] in chars)
    && (forall k :: a + |r| <= k < |s| ==> s[k] in chars)
  }

  /** The characters for which Python's `str.isspace()` holds: what `strip()` with no argument removes. */
  const Whitespace: set<char> := {
    '\t', '\n', '\U{000B}', '\U{000C}', '\r', '\U{001C}', '\U{001D}', '\U{001E}', '\U{001F}', ' ',
    '\U{0085}', '\U{00A0}', '\U{1680}', '\U{2000}', '\U{2001}', '\U{2002}', '\U{2003}', '\U{2004}',
    '\U{2005}', '\U{2006}', '\U{2007}', '\U{2008}', '\U{2009}', '\U{200A}', '\U{2028}', '\U{2029}',
    '\U{202F}', '\U{205F}', '\U{3000}'
  }

  const Slash: set<char> := {'/'}

  /**
   * What survives `strip` is the stretch of `s` from its first to its last character
   * outside `chars`: every occurrence of a pattern whose first and last characters
   * are outside `chars` is still there.
   */
  lemma {:induction false} StripKeepsOccurrence(s: string, chars: set<char>, pat: string, i: int)
    requires OccursAt(s, pat, i) && pat != []
    requires pat[0] !in chars && pat[|pat| - 1] !in chars
    ensures Find(Strip(s, chars), pat).Some?
  {
    var l := LStrip(s, chars);
    var i' := LStripKeepsOccurrence(s, chars, pat, i);
    var r := RStrip(l, chars);
    RStripKeepsOccurrence(l, chars, pat, i');
    assert r == Strip(s, chars);
  }

  lemma LStripKeepsOccurrence(s: string, chars: set<char>, pat: string, i: int) returns (i': int)
    requires OccursAt(s, pat, i) && pat != [] && pat[0] !in chars
    ensures OccursAt(LStrip(s, chars), pat, i')
  {
    var l := LStrip(s, chars);
    var cut := |s| - |l|;
    assert s[i] == pat[0];
    assert i >= cut;
    i' := i - cut;
    assert l[i'..i' + |pat|] == s[i..i + |pat|];
  }

  lemma RStripKeepsOccurrence(l: string, chars: set<char>, pat: string, i: int)
    requires OccursAt(l, pat, i) && pat != [] && pat[|pat| - 1] !in chars
    ensures OccursAt(RStrip(l, chars), pat, i)
  {
    var r := RStrip(l, chars);
    assert l[i + |pat| - 1] == pat[|pat| - 1];
    assert i + |pat| <= |r|;
    assert r[i..i + |pat|] == l[i..i + |pat|];
  }

  /** `str.lower()` restricted to ASCII letters. */
  function AsciiLower(s: string): (r: string)
    ensures |r| == |s|
    ensures forall k :: 0 <= k < |s| ==> r[k] == LowerChar(s[k])
  {
    seq(|s|, k requires 0 <= k < |s| => LowerChar(s[k]))
  }

  function LowerChar(c: char): char {
    if 'A' <= c <= 'Z' then (c as int + 32) as char else c
  }

  /** `s.rfind(c)`: the last index holding `c`, or -1. */
  function RFind(s: string, c: char): (r: int)
    ensures -1 <= r < |s|
    ensures r >= 0 ==> s[r] == c
    ensures forall k :: r < k < |s| ==> s[k] != c
    decreases |s|
  {
    if s == [] then -1
    else if s[|s| - 1] == c then |s| - 1
    else RFind(s[..|s| - 1], c)
  }

  /** `posixpath.join(a, b)`. */
  function PathJoin(a: string, b: string): (r: string)
    ensures EndsWith(r, b)
  {
    if StartsWith(b, "/") then b
    else if a == [] || a[|a| - 1] == '/' then a + b
    else a + "/" + b
  }

  /**
   * The rules of `posixpath.join`: an absolute second part replaces the first; otherwise
   * it follows the first, with one `/` between them unless the first is empty or
   * already ends with one.
   */
  lemma PathJoinRules(a: string, b: string)
    ensures StartsWith(b, "/") ==> PathJoin(a, b) == b
    ensures !StartsWith(b, "/") && (a == [] || EndsWith(a, "/")) ==> PathJoin(a, b) == a + b
    ensures !StartsWith(b, "/") && a != [] && !EndsWith(a, "/") ==> PathJoin(a, b) == a + "/" + b
    ensures !StartsWith(b, "/") ==> StartsWith(PathJoin(a, b), a)
  {
    if !StartsWith(b, "/") && a != [] {
      assert EndsWith(a, "/") <==> a[|a| - 1] == '/';
    }
  }

  /** `posixpath.basename(p)`: what follows the last slash. */
  function Basename(p: string): (r: string)
    ensures IsBasename(p, r)
  {
    var k := RFind(p, '/');
    p[k + 1..]
  }

  /** `r` is the last slash-free stretch of `p`: a suffix with no slash, preceded by a slash or by nothing. */
  predicate IsBasename(p: string, r: string) {
    && EndsWith(p, r)
    && (forall i :: 0 <= i < |r| ==> r[i] != '/')
    && (r == p || (|r| < |p| && p[|p| - |r| - 1] == '/'))
  }

  lemma BasenameUnique(p: string, r: string)
    requires IsBasename(p, r)
    ensures r == Basename(p)
  {
  }

  /** The basename of a joined path is the basename of its last component. */
  lemma BasenameOfJoin(a: string, b: string)
    ensures Basename(PathJoin(a, b)) == Basename(b)
  {
    var j := PathJoin(a, b);
    var rb := Basename(b);
    if StartsWith(b, "/") {
      assert j == b;
    } else if b == [] {
      assert j == a || j == a + "/";
      BasenameUnique(j, rb);
    } else {
      var pre := if a == [] || a[|a| - 1] == '/' then a else a + "/";
      assert j == pre + b;
      assert pre == [] || pre[|pre| - 1] == '/';
      BasenameSuffix(pre, b);
    }
  }

  /** Prefixing a path with a directory that ends in a slash keeps its basename. */
  lemma BasenameSuffix(pre: string, b: string)
    requires pre == [] || pre[|pre| - 1] == '/'
    ensures Basename(pre + b) == Basename(b)
  {
    var rb := Basename(b);
    var j := pre + b;
    assert EndsWith(j, rb) by {
      assert j[|j| - |rb|..] == b[|b| - |rb|..];
    }
    if rb == b && pre != [] {
      assert j[|j| - |rb| - 1] == pre[|pre| - 1];
    } else if rb != b {
      assert j[|j| - |rb| - 1] == b[|b| - |rb| - 1];
    }
    BasenameUnique(j, rb);
  }

  /**
   * `posixpath.splitext(p)`: the extension starts at the last dot after the last slash,
   * unless everything between that slash and the dot is dots (a leading-dot name such as `.json`).
   */
  function SplitExt(p: string): (r: (string, string))
    ensures r.0 + r.1 == p
    ensures r.1 == [] || r.1[0] == '.'
    ensures forall i :: 0 < i < |r.1| ==> r.1[i] != '.' && r.1[i] != '/'
    ensures r.1 != [] <==> HasExtension(p)
  {
    var sep := RFind(p, '/');
    var dot := RFind(p, '.');
    ExtensionAt(p, sep, dot);
    if dot > sep && exists k :: sep < k < dot && p[k] != '.' then
      (p[..dot], p[dot..])
    else (p, "")
  }

  /** The last path component holds a dot with some character other than a dot before it. */
  predicate HasExtension(p: string) {
    exists k, i :: 0 <= k < i < |p| && p[k] != '.' && p[i] == '.' && NoSlashFrom(p, k)
  }

  predicate NoSlashFrom(p: string, k: int)
    requires 0 <= k
  {
    forall j :: k <= j < |p| ==> p[j] != '/'
  }

  lemma ExtensionAt(p: string, sep: int, dot: int)
    requires sep == RFind(p, '/') && dot == RFind(p, '.')
    ensures (dot > sep && exists k :: sep < k < dot && p[k] != '.') <==> HasExtension(p)
  {
    if HasExtension(p) {
      var k, i :| 0 <= k < i < |p| && p[k] != '.' && p[i] == '.' && NoSlashFrom(p, k);
      assert sep < k;
      assert i <= dot;
    }
    if dot > sep && exists k :: sep < k < dot && p[k] != '.' {
      var k :| sep < k < dot && p[k] != '.';
      assert NoSlashFrom(p, k);
    }
  }
}

=== FILE: rss_feed.dfy ===
/**
 * The values `generate_rss_feed` computes before it builds XML: each post's date as
 * `strptime(date, "%Y-%m-%d")` reads it, the stable newest-first order, and the
 * channel and item records of the feed.
 */
module RssFeed {
  import opened Wrappers
  import opened PyText
  import opened JsonValues
  import opened SiteInputs
  import opened DataCollectionsLoader

  // ----- dates -----

  datatype Date = Date(year: int, month: int, day: int)

  predicate IsLeap(y: int) {
    y % 4 == 0 && (y % 100 != 0 || y % 400 == 0)
  }

  function DaysIn(y: int, m: int): int {
    if m == 2 then (if IsLeap(y) then 29 else 28)
    else if m == 4 || m == 6 || m == 9 || m == 11 then 30
    else 31
  }

  /** A date `datetime` can hold. */
  predicate ValidDate(d: Date) {
    1 <= d.year <= 9999 && 1 <= d.month <= 12 && 1 <= d.day <= DaysIn(d.year, d.month)
  }

  /** `datetime.datetime.min`. */
  const MinDate: Date := Date(1, 1, 1)

  predicate IsDigit(c: char) {
    '0' <= c <= '9'
  }

  function DigitValue(c: char): (v: int)
    requires IsDigit(c)
    ensures 0 <= v <= 9
  {
    c as int - '0' as int
  }

  /** The `%m` field, `1[0-2]|0[1-9]|[1-9]`, given exactly the text before the next `-`. */
  function MonthField(s: string): (r: Option<int>)
    ensures r.Some? ==> 1 <= r.value <= 12
  {
    if |s| == 2 && s[0] == '1' && '0' <= s[1] <= '2' then Some(10 + DigitValue(s[1]))
    else if |s| == 2 && s[0] == '0' && '1' <= s[1] <= '9' then Some(DigitValue(s[1]))
    else if |s| == 1 && '1' <= s[0] <= '9' then Some(DigitValue(s[0]))
    else None
  }

  /**
   * The `%d` field, `3[01]|[12]\d|0[1-9]|[1-9]| [1-9]`, given the rest of the text: the
   * first alternative that matches is taken, and it must use up the whole text
   * (otherwise "unconverted data remains").
   */
  function DayField(s: string): (r: Option<int>)
    ensures r.Some? ==> 1 <= r.value <= 31
  {
    if |s| >= 2 && s[0] == '3' && '0' <= s[1] <= '1' then
      (if |s| == 2 then Some(30 + DigitValue(s[1])) else None)
    else if |s| >= 2 && '1' <= s[0] <= '2' && IsDigit(s[1]) then
      (if |s| == 2 then Some(10 * DigitValue(s[0]) + DigitValue(s[1])) else None)
    else if |s| >= 2 && s[0] == '0' && '1' <= s[1] <= '9' then
      (if |s| == 2 then Some(DigitValue(s[1])) else None)
    else if |s| >= 1 && '1' <= s[0] <= '9' then
      (if |s| == 1 then Some(DigitValue(s[0])) else None)
    else if |s| >= 2 && s[0] == ' ' && '1' <= s[1] <= '9' then
      (if |s| == 2 then Some(DigitValue(s[1])) else None)
    else None
  }

  /** Where the month text ends: the `-` after one or two characters, or 0 when there is none. */
  function MonthLength(rest: string): nat {
    if |rest| >= 2 && rest[1] == '-' then 1
    else if |rest| >= 3 && rest[2] == '-' then 2
    else 0
  }

  /**
   * `datetime.strptime(s, "%Y-%m-%d")`: four digits, `-`, the month, `-`, the day, and
   * a day that exists in that month; None where it raises `ValueError` (year 0 included).
   */
  function ParseDate(s: string): (r: Option<Date>)
    ensures r.Some? ==> ValidDate(r.value)
  {
    if |s| < 5 || !IsDigit(s[0]) || !IsDigit(s[1]) || !IsDigit(s[2]) || !IsDigit(s[3]) || s[4] != '-' then None
    else
      var year := 1000 * DigitValue(s[0]) + 100 * DigitValue(s[1]) + 10 * DigitValue(s[2]) + DigitValue(s[3]);
      var rest := s[5..];
      var ml := MonthLength(rest);
      if ml == 0 then None
      else
        match (MonthField(rest[..ml]), DayField(rest[ml + 1..]))
        case (Some(m), Some(d)) => if 1 <= year && d <= DaysIn(year, m) then Some(Date(year, m, d)) else None
        case _ => None
  }

  function DigitChar(n: int): (c: char)
    requires 0 <= n <= 9
    ensures IsDigit(c) && DigitValue(c) == n
  {
    ('0' as int + n) as char
  }

  /** The date written `YYYY-MM-DD` with zero padding, as it is usually given in front matter. */
  function FormatDate(d: Date): (s: string)
    requires ValidDate(d)
    ensures |s| == 10
  {
    [DigitChar(d.year / 1000), DigitChar(d.year / 100 % 10), DigitChar(d.year / 10 % 10), DigitChar(d.year % 10), '-',
     DigitChar(d.month / 10), DigitChar(d.month % 10), '-',
     DigitChar(d.day / 10), DigitChar(d.day % 10)]
  }

  lemma FourDigits(y: int)
    requires 0 <= y <= 9999
    ensures 1000 * (y / 1000) + 100 * (y / 100 % 10) + 10 * (y / 10 % 10) + y % 10 == y
  {
    var t := y / 10;
    var h := y / 100;
    assert y == 10 * t + y % 10;
    assert h == t / 10 && t == 10 * h + t % 10;
    assert y / 1000 == h / 10 && h == 10 * (h / 10) + h % 10;
  }

  /** Every valid date written `YYYY-MM-DD` reads back as itself. */
  lemma {:induction false} ParseFormattedDate(d: Date)
    requires ValidDate(d)
    ensures ParseDate(FormatDate(d)) == Some(d)
  {
    var s := FormatDate(d);
    FourDigits(d.year);
    var rest := s[5..];
    assert rest == [DigitChar(d.month / 10), DigitChar(d.month % 10), '-', DigitChar(d.day / 10), DigitChar(d.day % 10)];
    assert MonthLength(rest) == 2;
    assert rest[..2] == [DigitChar(d.month / 10), DigitChar(d.month % 10)];
    assert MonthField(rest[..2]) == Some(d.month);
    assert rest[3..] == [DigitChar(d.day / 10), DigitChar(d.day % 10)];
    assert DayField(rest[3..]) == Some(d.day);
  }

  /**
   * `strptime` also reads unpadded fields and a space-padded day, and refuses a day the
   * month does not have, year 0, and trailing text.
   */
  lemma UnpaddedDates()
    ensures ParseDate("2024-1-5") == Some(Date(2024, 1, 5))
    ensures ParseDate("2024-01- 5") == Some(Date(2024, 1, 5))
    ensures ParseDate("2023-02-29") == None
    ensures ParseDate("0000-01-01") == None
    ensures ParseDate("2024-01-011") == None
  {
    UnpaddedMonthAndDay();
    SpacePaddedDay();
    NoLeapDay();
    TrailingText();
  }

  lemma UnpaddedMonthAndDay()
    ensures ParseDate("2024-1-5") == Some(Date(2024, 1, 5))
  {
    assert "2024-1-5"[5..] == "1-5";
    assert "1-5"[..1] == "1" && "1-5"[2..] == "5";
  }

  lemma SpacePaddedDay()
    ensures ParseDate("2024-01- 5") == Some(Date(2024, 1, 5))
  {
    assert "2024-01- 5"[5..] == "01- 5";
    assert "01- 5"[..2] == "01" && "01- 5"[3..] == " 5";
  }

  lemma NoLeapDay()
    ensures ParseDate("2023-02-29") == None
  {
    assert "2023-02-29"[5..] == "02-29";
    assert "02-29"[..2] == "02" && "02-29"[3..] == "29";
  }

  lemma TrailingText()
    ensures ParseDate("2024-01-011") == None
  {
    assert "2024-01-011"[5..] == "01-011";
    assert "01-011"[..2] == "01" && "01-011"[3..] == "011";
  }

  /** The sort key of a date: its fields read as one number, so numeric order is calendar order. */
  function DateKey(d: Date): int {
    d.year * 10000 + d.month * 100 + d.day
  }

  lemma DateKeyIsCalendarOrder(a: Date, b: Date)
    requires ValidDate(a) && ValidDate(b)
    ensures DateKey(a) < DateKey(b) <==>
      a.year < b.year || (a.year == b.year && (a.month < b.month || (a.month == b.month && a.day < b.day)))
    ensures DateKey(a) == DateKey(b) <==> a == b
  {
  }

  // ----- date stamps -----

  /**
   * What the stamping loop gives a post: no `_date_obj` (no date, or one that is empty
   * or not a string), the parsed date, or `datetime.min` for a date that does not parse.
   */
  datatype Stamp = NoDate | Parsed(date: Date) | Unparsable

  function StampOf(date: Option<Json>): Stamp {
    if date.Some? && date.value.JStr? && date.value.s != [] then
      match ParseDate(date.value.s)
      case Some(d) => Parsed(d)
      case None => Unparsable
    else NoDate
  }

  /**
   * The stamps of all posts, stamp `i` being that of post `i`'s `date`, or the
   * `AttributeError` of `.get` on front matter that is not an object.
   */
  function Stamps(posts: seq<Item>): (r: Result<seq<Stamp>>)
    ensures r.Ok? ==> |r.value| == |posts|
    ensures r.Ok? ==> forall i :: 0 <= i < |posts| ==>
      Get(posts[i].frontMatter, "date").Ok? && r.value[i] == StampOf(Get(posts[i].frontMatter, "date").value)
    decreases |posts|
  {
    if posts == [] then Ok([])
    else
      var init := posts[..|posts| - 1];
      match Stamps(init)
      case Err(f) => Err(f)
      case Ok(st) =>
        match Get(posts[|posts| - 1].frontMatter, "date")
        case Err(f) => Err(f)
        case Ok(date) =>
          assert forall i :: 0 <= i < |init| ==> init[i] == posts[i];
          Ok(st + [StampOf(date)])
  }

  /** Stamping succeeds exactly when every post's front matter is an object. */
  lemma {:induction false} StampsOk(posts: seq<Item>)
    ensures Stamps(posts).Ok? <==> forall i :: 0 <= i < |posts| ==> posts[i].frontMatter.JObj?
    decreases |posts|
  {
    if posts != [] {
      var init := posts[..|posts| - 1];
      StampsOk(init);
      assert forall i :: 0 <= i < |init| ==> init[i] == posts[i];
    }
  }

  /** The key `sorted` uses: `_date_obj`, defaulting to `datetime.min`. */
  function SortKey(st: Stamp): int {
    match st
    case Parsed(d) => DateKey(d)
    case _ => DateKey(MinDate)
  }

  /** The `pubDate` of a feed item: only a post that received `_date_obj` has one. */
  function PubDate(st: Stamp): Option<Date> {
    match st
    case NoDate => None
    case Parsed(d) => Some(d)
    case Unparsable => Some(MinDate)
  }

  /** A missing or unparsable date sorts exactly like `datetime.min`, and no valid date sorts lower. */
  lemma MissingDatesSortAsMinimum(st: Stamp)
    requires st.Parsed? ==> ValidDate(st.date)
    ensures !st.Parsed? ==> SortKey(st) == DateKey(MinDate)
    ensures SortKey(st) >= DateKey(MinDate)
  {
  }

  // ----- stable newest-first order -----

  /** Position `i` goes before position `j`: larger key first, original order among equal keys. */
  predicate Before(keys: seq<int>, i: nat, j: nat)
    requires i < |keys| && j < |keys|
  {
    keys[i] > keys[j] || (keys[i] == keys[j] && i < j)
  }

  predicate InRange(keys: seq<int>, s: seq<nat>) {
    forall a :: 0 <= a < |s| ==> s[a] < |keys|
  }

  predicate Ordered(keys: seq<int>, s: seq<nat>)
    requires InRange(keys, s)
  {
    forall a, b :: 0 <= a < b < |s| ==> Before(keys, s[a], s[b])
  }

  /** Inserts position `i` after every position whose key is at least as large. */
  function InsertDesc(keys: seq<int>, s: seq<nat>, i: nat): seq<nat>
    requires i < |keys| && InRange(keys, s)
  {
    if s == [] then [i]
    else if keys[s[0]] >= keys[i] then [s[0]] + InsertDesc(keys, s[1..], i)
    else [i] + s
  }

  lemma {:induction false} InsertDescOrdered(keys: seq<int>, s: seq<nat>, i: nat)
    requires i < |keys| && InRange(keys, s) && Ordered(keys, s)
    requires forall a :: 0 <= a < |s| ==> s[a] < i
    ensures var r := InsertDesc(keys, s, i);
      && |r| == |s| + 1 && InRange(keys, r) && Ordered(keys, r)
      && (forall x :: x in r <==> x in s || x == i)
  {
    if s == [] {
      assert InsertDesc(keys, s, i) == [i];
    } else if keys[s[0]] >= keys[i] {
      var t := s[1..];
      assert forall a :: 0 <= a < |t| ==> t[a] == s[a + 1];
      InsertDescOrdered(keys, t, i);
      var r' := InsertDesc(keys, t, i);
      assert InsertDesc(keys, s, i) == [s[0]] + r';
      HeadStaysFirst(keys, s, i, r');
      ConsOrdered(keys, s[0], r');
      assert s == [s[0]] + t;
    } else {
      assert InsertDesc(keys, s, i) == [i] + s;
      forall b | 0 <= b < |s| ensures Before(keys, i, s[b]) {
        if b > 0 {
          assert Before(keys, s[0], s[b]);
        }
      }
      ConsOrdered(keys, i, s);
    }
  }

  /** The head of an ordered sequence goes before the rest of it and before a later, no larger position. */
  lemma HeadStaysFirst(keys: seq<int>, s: seq<nat>, i: nat, r': seq<nat>)
    requires i < |keys| && InRange(keys, s) && Ordered(keys, s) && s != []
    requires s[0] < i && keys[s[0]] >= keys[i] && InRange(keys, r')
    requires forall x :: x in r' <==> x in s[1..] || x == i
    ensures forall b :: 0 <= b < |r'| ==> Before(keys, s[0], r'[b])
  {
    forall b | 0 <= b < |r'| ensures Before(keys, s[0], r'[b]) {
      assert r'[b] in r';
      if r'[b] != i {
        var k :| 0 <= k < |s[1..]| && s[1..][k] == r'[b];
        assert Before(keys, s[0], s[k + 1]);
      }
    }
  }

  lemma ConsOrdered(keys: seq<int>, x: nat, r: seq<nat>)
    requires x < |keys| && InRange(keys, r) && Ordered(keys, r)
    requires forall b :: 0 <= b < |r| ==> Before(keys, x, r[b])
    ensures InRange(keys, [x] + r) && Ordered(keys, [x] + r)
  {
    var c := [x] + r;
    forall a, b | 0 <= a < b < |c| ensures Before(keys, c[a], c[b]) {
      assert c[b] == r[b - 1];
      if a > 0 {
        assert c[a] == r[a - 1];
      }
    }
  }

  /** The positions `0 .. n-1` in stable newest-first order. */
  function SortPrefix(keys: seq<int>, n: nat): (r: seq<nat>)
    requires n <= |keys|
    ensures |r| == n && InRange(keys, r) && Ordered(keys, r)
    ensures forall x :: x in r <==> 0 <= x < n
    decreases n
  {
    if n == 0 then []
    else
      var s := SortPrefix(keys, n - 1);
      assert forall a :: 0 <= a < |s| ==> s[a] in s;
      InsertDescOrdered(keys, s, n - 1);
      InsertDesc(keys, s, n - 1)
  }

  /**
   * `sorted(posts, key=..., reverse=True)` on positions: every position exactly once,
   * later keys first, and positions with equal keys in their original order.
   */
  function SortedOrder(keys: seq<int>): (order: seq<nat>)
    ensures |order| == |keys| && InRange(keys, order) && Ordered(keys, order)
    ensures forall k :: 0 <= k < |keys| ==> k in order
  {
    SortPrefix(keys, |keys|)
  }

  // ----- feed records -----

  datatype FeedItem = FeedItem(title: Json, link: string, guid: string, pubDate: Option<Date>, description: Json)

  datatype Channel = Channel(title: Json, link: string, description: Json, atomLink: string)

  datatype Feed = Feed(channel: Channel, items: seq<FeedItem>)

  /** At most this many posts make it into the feed. */
  const MaxFeedItems: nat := 10

  /** The default description: the content, cut to 200 characters and marked with `...` when longer. */
  function Summary(content: string): (r: string)
    ensures |content| <= 200 ==> r == content
    ensures |content| > 200 ==> |r| == 203 && StartsWith(r, content[..200]) && EndsWith(r, "...")
  {
    if |content| > 200 then content[..200] + "..." else content
  }

  /** `fields.get(key, default)`. */
  function GetOr(fields: map<string, Json>, key: string, default: Json): Json {
    if key in fields then fields[key] else default
  }

  /** The record of one post in the feed. */
  function FeedItemOf(post: Item, st: Stamp): (fi: FeedItem)
    requires post.frontMatter.JObj?
    ensures fi.link == fi.guid == post.url
    ensures "title" in post.frontMatter.fields ==> fi.title == post.frontMatter.fields["title"]
    ensures "title" !in post.frontMatter.fields ==> fi.title == JStr("No Title")
    ensures "description" in post.frontMatter.fields ==> fi.description == post.frontMatter.fields["description"]
    ensures "description" !in post.frontMatter.fields ==> fi.description == JStr(Summary(post.content))
    ensures fi.pubDate == PubDate(st)
  {
    var fm := post.frontMatter.fields;
    FeedItem(GetOr(fm, "title", JStr("No Title")), post.url, post.url, PubDate(st),
             GetOr(fm, "description", JStr(Summary(post.content))))
  }

  /** The channel: title and description from the configuration or their defaults, the base URL as link. */
  function ChannelOf(cfg: Config): (ch: Channel)
    ensures cfg.siteTitle.Some? ==> ch.title == cfg.siteTitle.value
    ensures cfg.siteTitle.None? ==> ch.title == JStr("My Static Site")
    ensures cfg.siteDescription.Some? ==> ch.description == cfg.siteDescription.value
    ensures cfg.siteDescription.None? ==> ch.description == JStr("A static site generated with Python.")
    ensures ch.link == cfg.baseUrl && ch.atomLink == cfg.baseUrl + "/feed.xml"
  {
    Channel(if cfg.siteTitle.Some? then cfg.siteTitle.value else JStr("My Static Site"),
            cfg.baseUrl,
            if cfg.siteDescription.Some? then cfg.siteDescription.value else JStr("A static site generated with Python."),
            cfg.baseUrl + "/feed.xml")
  }

  /**
   * ElementTree writes an element's text only when it is truthy, and then only a string:
   * `tostring` raises `TypeError` for any other truthy value.
   */
  predicate Writable(text: Json) {
    text.JStr? || !Truthy(text)
  }

  /** `tostring(rss)` succeeds: the channel's and every item's title and description can be written. */
  predicate Serializable(feed: Feed) {
    && Writable(feed.channel.title) && Writable(feed.channel.description)
    && forall k :: 0 <= k < |feed.items| ==> Writable(feed.items[k].title) && Writable(feed.items[k].description)
  }

  function SortKeys(stamps: seq<Stamp>): (keys: seq<int>)
    ensures |keys| == |stamps|
  {
    seq(|stamps|, i requires 0 <= i < |stamps| => SortKey(stamps[i]))
  }

  function Min(a: nat, b: nat): nat {
    if a <= b then a else b
  }

  /** The positions of the posts that go into the feed: the first ten of the newest-first order. */
  function FeedOrder(stamps: seq<Stamp>): (top: seq<nat>)
    ensures |top| == Min(MaxFeedItems, |stamps|)
    ensures forall k :: 0 <= k < |top| ==> top[k] < |stamps|
  {
    SortedOrder(SortKeys(stamps))[..Min(MaxFeedItems, |stamps|)]
  }

  /** Every post's front matter is an object (what a successful stamping guarantees). */
  predicate AllObjects(posts: seq<Item>) {
    forall i :: 0 <= i < |posts| ==> posts[i].frontMatter.JObj?
  }

  /** The feed items, in feed order. */
  function FeedItems(posts: seq<Item>, stamps: seq<Stamp>): (items: seq<FeedItem>)
    requires |stamps| == |posts| && AllObjects(posts)
    ensures |items| == Min(MaxFeedItems, |posts|)
  {
    var top := FeedOrder(stamps);
    seq(|top|, k requires 0 <= k < |top| => FeedItemOf(posts[top[k]], stamps[top[k]]))
  }

  /**
   * The feed lists the newest posts first, at most ten of them, each post at most once,
   * posts with equal dates in their original order, and every post left out is no newer
   * than every post listed.
   */
  lemma FeedIsNewestFirst(posts: seq<Item>, stamps: seq<Stamp>)
    requires |stamps| == |posts| && AllObjects(posts)
    ensures var top := FeedOrder(stamps); var keys := SortKeys(stamps);
      && (forall a, b :: 0 <= a < b < |top| ==> keys[top[a]] >= keys[top[b]] && top[a] != top[b])
      && (forall a, b :: 0 <= a < b < |top| && keys[top[a]] == keys[top[b]] ==> top[a] < top[b])
      && (forall a, q :: 0 <= a < |top| && 0 <= q < |posts| && q !in top ==> keys[top[a]] >= keys[q])
      && (forall k :: 0 <= k < |top| ==> FeedItems(posts, stamps)[k] == FeedItemOf(posts[top[k]], stamps[top[k]]))
  {
    var keys := SortKeys(stamps);
    var order := SortedOrder(keys);
    var top := FeedOrder(stamps);
    forall a, q | 0 <= a < |top| && 0 <= q < |posts| && q !in top
      ensures keys[top[a]] >= keys[q]
    {
      assert q in order;
      var c :| 0 <= c < |order| && order[c] == q;
      assert forall d :: 0 <= d < |top| ==> top[d] == order[d];
      assert c >= |top|;
      assert Before(keys, order[a], order[c]);
    }
  }
}

=== FILE: site_inputs.dfy ===
/**
 * What a build reads from outside: the configuration mapping (after `load_config`)
 * and a snapshot of the file system, given as the listings `os.walk` would produce.
 */
module SiteInputs {
  import opened Wrappers
  import opened PyText
  import opened JsonValues

  /** One entry of `config["collections"]`: its key and the `path` / `output` settings. */
  datatype CollectionSetting = CollectionSetting(name: string, path: Option<string>, output: Option<string>)

  datatype Config = Config(
    baseUrl: string,
    useAbsoluteUrls: bool,            // truthiness of config.get("use_absolute_urls")
    useAbsoluteStatic: bool,          // truthiness of config.get("use_absolute_static")
    outputDir: string,
    pagesDir: string,
    templatesDir: string,
    staticDir: string,
    assetsDir: string,
    dataDir: Option<string>,
    pluginsDir: Option<string>,
    collections: seq<CollectionSetting>,   // in the order of the config dict
    siteTitle: Option<Json>,
    siteDescription: Option<Json>)

  /** Python's `if not d` on an optional path: unset or empty. */
  predicate IsSet(d: Option<string>) {
    d.Some? && d.value != ""
  }

  /** A dict's keys are distinct. */
  predicate DistinctNames(cs: seq<CollectionSetting>) {
    forall i, j :: 0 <= i < j < |cs| ==> cs[i].name != cs[j].name
  }

  /**
   * A file found by `os.walk(top)`: the sub-directory of `top` it sits in ("" for `top`
   * itself), its bare file name, and its text (None when it cannot be read or decoded).
   */
  datatype FileEntry = FileEntry(subdir: string, name: string, text: Option<string>) {
    /** `os.path.relpath(os.path.join(root, name), top)`. */
    function RelPath(): string {
      if subdir == "" then name else PathJoin(subdir, name)
    }

    /** `os.path.join(root, name)`, where `root` is the walk's directory for this entry. */
    function PathUnder(top: string): string {
      PathJoin(if subdir == "" then top else PathJoin(top, subdir), name)
    }
  }

  /**
   * The file system as the build sees it: which paths exist, the text of the files it
   * opens by path, and for each directory the files `os.walk` yields, in walk order.
   */
  datatype Disk = Disk(paths: set<string>, files: map<string, string>, walks: map<string, seq<FileEntry>>) {
    predicate Exists(p: string) {
      p in paths
    }

    /** `os.walk(top)`: nothing for a path that is not a directory. */
    function Walk(top: string): seq<FileEntry> {
      if top in walks then walks[top] else []
    }

    /** `open(p).read()`: None when it raises. */
    function Read(p: string): Option<string> {
      if p in files then Some(files[p]) else None
    }
  }
}

=== FILE: url_helpers.dfy ===
/** `url` and `static`: the string builders templates and the build use for links. */
module UrlHelpers {
  import opened Wrappers
  import opened PyText
  import opened SiteInputs

  /** `t` is `p` with every leading slash removed. */
  predicate SlashesStripped(p: string, t: string) {
    && |t| <= |p| && t == p[|p| - |t|..]
    && (forall k :: 0 <= k < |p| - |t| ==> p[k] == '/')
    && (t == [] || t[0] != '/')
  }

  /**
   * `url(path, config)`: the base URL (absolute mode) or nothing (relative mode),
   * then one slash, then the path without its leading slashes.
   */
  function Url(path: string, cfg: Config): (r: string)
    ensures !cfg.useAbsoluteUrls ==> |r| >= 1 && r[0] == '/' && SlashesStripped(path, r[1..])
    ensures cfg.useAbsoluteUrls ==>
      StartsWith(r, cfg.baseUrl + "/") && SlashesStripped(path, r[|cfg.baseUrl| + 1..])
  {
    var rest := LStrip(path, Slash);
    if cfg.useAbsoluteUrls then cfg.baseUrl + "/" + rest else "/" + rest
  }

  /** In relative mode a URL starts with exactly one slash. */
  lemma RelativeUrlHasOneLeadingSlash(path: string, cfg: Config)
    requires !cfg.useAbsoluteUrls
    ensures var r := Url(path, cfg); r[0] == '/' && (|r| == 1 || r[1] != '/')
  {
  }

  /** Only the leading slashes of a path are stripped, so a stripped path is stripped no further. */
  lemma {:induction false} LStripSlashIdempotent(p: string)
    ensures LStrip(LStrip(p, Slash), Slash) == LStrip(p, Slash)
  {
    var t := LStrip(p, Slash);
    if t != [] {
      assert t[0] !in Slash;
    }
  }

  /** In relative mode `url` is idempotent: a URL resolves to itself. */
  lemma {:induction false} RelativeUrlIdempotent(path: string, cfg: Config)
    requires !cfg.useAbsoluteUrls
    ensures Url(Url(path, cfg), cfg) == Url(path, cfg)
  {
    var t := LStrip(path, Slash);
    var u := "/" + t;
    assert u[0] in Slash && u[1..] == t;
    assert LStrip(u, Slash) == LStrip(t, Slash);
    LStripSlashIdempotent(path);
  }

  /**
   * In absolute mode the base URL is used as written: a base with a trailing slash
   * yields a doubled slash, so the two spellings of one site give different links.
   */
  lemma {:induction false} BaseUrlIsNotNormalised(plain: Config, slashed: Config)
    requires plain.useAbsoluteUrls && plain.baseUrl == "http://x.test"
    requires slashed.useAbsoluteUrls && slashed.baseUrl == "http://x.test/"
    ensures Url("a.html", plain) == "http://x.test/a.html"
    ensures Url("a.html", slashed) == "http://x.test//a.html"
  {
    assert LStrip("a.html", Slash) == "a.html";
  }

  /**
   * In absolute mode `url` is not idempotent: for a base that does not start with a
   * slash (any `http...` base), the second call prefixes the base once more.
   */
  lemma {:induction false} AbsoluteUrlNotIdempotent(path: string, cfg: Config)
    requires cfg.useAbsoluteUrls && cfg.baseUrl != [] && cfg.baseUrl[0] != '/'
    ensures Url(Url(path, cfg), cfg) == cfg.baseUrl + "/" + Url(path, cfg)
    ensures Url(Url(path, cfg), cfg) != Url(path, cfg)
  {
    var u := Url(path, cfg);
    assert u[0] == cfg.baseUrl[0];
    assert LStrip(u, Slash) == u;
  }

  /** The outcome of `static(path, config)`: the link, and whether the "not found" warning is logged. */
  datatype StaticLink = StaticLink(url: string, warnedMissing: bool)

  /**
   * `static(path, config)`: a relative-mode `url` under `/static`, with the base URL
   * in front in absolute-static mode. A missing file only logs a warning; the link is
   * the same either way.
   */
  function Static(path: string, cfg: Config, disk: Disk): (r: StaticLink)
    ensures r.warnedMissing <==> !disk.Exists(PathJoin(cfg.staticDir, LStrip(path, Slash)))
    ensures r.url == (if cfg.useAbsoluteStatic then cfg.baseUrl else "") + "/static" + Url(path, cfg.(useAbsoluteUrls := false))
  {
    var rest := LStrip(path, Slash);
    var missing := !disk.Exists(PathJoin(cfg.staticDir, rest));
    if cfg.useAbsoluteStatic then StaticLink(cfg.baseUrl + "/static/" + rest, missing)
    else StaticLink("/static/" + rest, missing)
  }

  /** Whether the static file exists never changes the link. */
  lemma StaticIgnoresExistence(path: string, cfg: Config, d1: Disk, d2: Disk)
    ensures Static(path, cfg, d1).url == Static(path, cfg, d2).url
  {
  }
}

=== FILE: wrappers.dfy ===
/** Option, Result and the Python exceptions that can escape the build. */
module Wrappers {

  datatype Option<+T> = None | Some(value: T)

  /** An exception raised by the Python code and not caught on the way up. */
  datatype Fault =
    | TypeError          // `key in value` on a number or boolean, `value[key]` on a list or string,
                         // `dict.update` with a value that is not a mapping,
                         // ElementTree's `tostring` on a truthy text that is not a string
    | ValueError         // `dict.update` with a non-empty string
    | AttributeError     // `.get` on a non-dict, `.lstrip` on a non-string
    | KeyError(key: string)
    | IOError            // a file that `open(...).read()` cannot read; this also stands for a
                         // file that is not valid UTF-8, where Python raises `UnicodeDecodeError`

  datatype Result<+T> = Ok(value: T) | Err(fault: Fault)
}
